=== FILE: README.md ===
# iex-rs core in Dafny

This project models the pure core of `iex-rs`, a Rust client for the IEX
market-data services, and proves properties of the model. The core has two
parts.

**IEX-TP / TOPS field decoders** (`src/iextp/`).
- The default methods of the `Unmarshal` trait read fixed-width fields of the
  IEX Transport Protocol: trimmed UTF-8 text, fixed-point prices,
  nanosecond timestamps and second-resolution event times.
- The price, timestamp and event-time decoders each have an encoder, and the
  two are proved inverse. Text decoding drops trailing whitespace, so it has
  no inverse on buffers: instead, parsing the encoding of a parsed string
  gives it back, and that encoding is a prefix of the input. Re-encoding a
  decoded segment header gives the buffer with its reserved byte zeroed.
  The source's test vectors are proved as lemmas.
- Prices stay scaled integers (ten-thousandths of a dollar). Times stay
  `(secs, nanos)` pairs, the arguments the source hands to chrono.
- `parse_timestamp` is modelled with Rust's `as i64` wrap-around, truncating
  `/` and `%`, and `as u32` cast, so raw values at or above 2^63 are covered too.
- Text validity is real UTF-8 well-formedness as `str::from_utf8` checks it:
  the well-formed byte sequences of Table 3-7 of the Unicode Standard.
  Trimming uses the Unicode White_Space set that `char::is_whitespace` uses.
- The TOPS message-type tags, system-event codes and protocol ids are closed
  catalogs. `src/iextp/tops.rs` only declares them, as constants and enums
  with byte discriminants; it has no decoder. The model adds the decoder
  each catalog implies (`Tops.DecodeMessageType`, `Tops.DecodeSystemEvent`,
  `Tops.CheckProtocol`, with the errors of `Tops.DecodeError`). Decoding a
  byte succeeds exactly on the catalog's bytes and inverts the tagging.
- The segment header is a record with a decoder and an encoder over 40
  bytes. Its `unmarshall` in the source has an empty body. `Segment.DecodeHeader`
  therefore models the header's declared layout (declaration order, with the
  reserved byte after `version`), not code that exists.

**REST path renderers** (`src/lib.rs`, `src/endpoints.rs`).
- `Duration`, `ListParam`, `ChartParam` and `Request` render to path text
  (`lib.rs`). The `Duration`, `ListParam` and `ChartParam` renderers each
  have a parser that reads their output back, which proves their renderings
  distinct.
- `Request::to_string` has no parser and is not injective. A chart path
  ignores the chart parameters (`Api.ChartIgnoresParams`). A threshold-securities
  request without a date renders like one with an empty date
  (`Api.ThresholdSecuritiesWithoutDate`). A symbol may itself contain `/`,
  so `Book("a/chart/date/x")` and `Chart("a", Date("x/book"), None)` both
  render `stock/a/chart/date/x/book`. What is proved about request paths is
  their shape (`Api.RequestPathShape`), that the resource does not depend
  on the symbol (`Api.SymbolPathSplit`), that a symbol without `/` is read
  back (`Api.SymbolOfRequestPath`), and how they relate to the endpoints.
- `StocksEndpoint::to_endpoint` and its own `Duration` (with an extra `None`),
  `ListParam` and `ChartParam` live in `endpoints.rs`.
- The two files are related by lemmas. For every request other than `Chart`,
  `Symbols` and `ThresholdSecurities`, the `lib.rs` path is the endpoint's
  path behind `stock/<symbol>/` (or `stock/market/` for a list). `Symbols`
  has no endpoint. There are two exceptions. The chart endpoint always
  appends `?` and then the query, while `lib.rs` appends neither, so the
  chart path equals the endpoint with no parameters minus its final `?`
  (`Endpoints.ChartRequestIsEndpointWithoutQuery`). Threshold securities
  agree only when a date is given; the case without a date follows.
- The two files differ on a threshold-securities request without a date.
  `lib.rs` renders `.../threshold-securities/date/`, because it falls back to
  `Date("")`. `endpoints.rs` renders `threshold-securities/`, because it falls
  back to `None`. Both are modelled as written, and `Endpoints.ThresholdSecuritiesDiverge`
  states the difference.

Files: `wrappers.dfy` (Option/Result), `byteorder.dfy` (little-endian
integers, two's-complement casts, truncating division), `decimal.dfy`
(`to_string` of integers and booleans), `utf8.dfy`, `unmarshal.dfy`,
`segment.dfy`, `tops.dfy`, `text.dfy` (prefixes and separators),
`api.dfy` (`lib.rs`), `endpoints.dfy` (`endpoints.rs`).

The test at `src/iextp/mod.rs:77-83` has a comment that reads 15:30:32. Its
assertion expects 19:30:32 UTC, which is what the bytes encode
(1471980632 seconds). `Unmarshal.ParseTimestampVectorNanos` follows the
assertion.

## Model

| member | source | states |
|---|---|---|
| ByteOrder.ReadUintLe | src/iextp/mod.rs:19 | a little-endian read succeeds exactly when the buffer holds the width, and its value re-encodes to the bytes read |
| ByteOrder.AsInt64 | src/iextp/mod.rs:24 | `u64 as i64` keeps the value modulo 2^64 and is negative exactly from 2^63 up |
| ByteOrder.Int64CastsRoundTrip | src/iextp/mod.rs:24 | the `u64`/`i64` casts are mutually inverse |
| ByteOrder.TruncSplitUnique | src/iextp/mod.rs:26-27 | any quotient and remainder that rebuild the dividend, with the remainder smaller than the divisor and of the dividend's sign, are Rust's `/` and `%` |
| ByteOrder.TruncDivRem | src/iextp/mod.rs:26-27 | Rust's `/` and `%` by a positive divisor: quotient times divisor plus remainder is the dividend, the remainder is smaller than the divisor and takes the dividend's sign |
| ByteOrder.LeBytesOfLeUint | src/iextp/mod.rs:19 | writing back a little-endian reading reproduces the bytes |
| Utf8.Decode | src/iextp/mod.rs:14 | `str::from_utf8` as a decoder to code points; `Utf8.DecodeEncode`, `Utf8.EncodeDecode` and `Utf8.ValidIffEncoding` state that it inverts the encoding and succeeds exactly on encodings |
| Utf8.ValidIffEncoding | src/iextp/mod.rs:15 | `from_utf8` accepts a byte string exactly when it is the UTF-8 encoding of some text |
| Utf8.DecodeEncode | src/iextp/mod.rs:15 | decoding the encoding of any text gives the text back |
| Utf8.EncodeDecode | src/iextp/mod.rs:15 | valid bytes are the encoding of what they decode to |
| Utf8.TrimEnd | src/iextp/mod.rs:15 | `trim_right` keeps a prefix that does not end in whitespace and drops only whitespace |
| Utf8.TrimEndIdempotent | src/iextp/mod.rs:15 | trimming twice trims nothing more |
| Unmarshal.ParseString | src/iextp/mod.rs:14-16 | fails exactly on invalid UTF-8; on success the text minus its trailing whitespace, whose encoding is a prefix of the input |
| Unmarshal.ParseStringReparse | src/iextp/mod.rs:14-16 | a parsed string is already trimmed: parsing its encoding again gives it back |
| Unmarshal.ParsePrice | src/iextp/mod.rs:18-21 | the price is the two's-complement `i64` reading of the 8 bytes in ten-thousandths, and re-encodes to them |
| Unmarshal.PriceRoundTrip | src/iextp/mod.rs:18-21 | every `i64` price survives encoding and decoding |
| Unmarshal.ParseTimestamp | src/iextp/mod.rs:23-30 | below 2^63 the unique split with `0 <= nanos < 10^9` and `secs * 10^9 + nanos == raw`; from 2^63 the raw value is read as a negative `i64`, `secs` is non-positive and the nanoseconds, read back as an `i32`, lie in `(-10^9, 0]`, so they are the `as u32` of Rust's truncating remainder |
| Unmarshal.ParseTimestampDetermined | src/iextp/mod.rs:23-30 | those clauses pin the result: every `(secs, nanos)` pair satisfying them is the one the decoder returns |
| Unmarshal.TimestampBytesOfParse | src/iextp/mod.rs:23-30 | every 8-byte timestamp, wrapped or not, is recovered from its decoding |
| Unmarshal.TimestampRoundTrip | src/iextp/mod.rs:23-30 | every canonical `(secs, nanos)` survives encoding and decoding |
| Unmarshal.ParseEventTime | src/iextp/mod.rs:33-36 | the seconds are the little-endian `u32` of the 4 bytes, below 2^32, with zero nanoseconds |
| Unmarshal.EventTimeRoundTrip | src/iextp/mod.rs:33-36 | every `u32` of seconds survives encoding and decoding |
| Unmarshal.ParseStringVector | src/iextp/mod.rs:52-60 | `"ZIEXT   "` parses to `"ZIEXT"` |
| Unmarshal.ParsePriceVector | src/iextp/mod.rs:62-67 | bytes `24 1d 0f 00 00 00 00 00` give 990500 ten-thousandths, i.e. 99.05 |
| Unmarshal.ParseTimestampVectorSecs | src/iextp/mod.rs:69-75 | bytes `00 a0 99 97 e9 3d b6 14` give 1492448400 s and 0 ns |
| Unmarshal.ParseTimestampVectorNanos | src/iextp/mod.rs:77-83 | bytes `ac 63 c0 20 96 86 6d 14` give 1471980632 s and 572715948 ns |
| Segment.LayoutFillsHeader | src/iextp/mod.rs:101-145 | the declared field widths plus the reserved byte fill exactly `SEGMENT_HEADER_SIZE` = 40 bytes |
| Segment.DecodeHeader | src/iextp/mod.rs:101-148 | decoding keeps every byte but the reserved one: re-encoding gives the buffer with byte 1 zeroed, and the send time is the `parse_timestamp` split of its eight bytes |
| Segment.DecodeEncodeHeader | src/iextp/mod.rs:101-145 | every header with a canonical send time survives encoding and decoding |
| Segment.ReservedByteIgnored | src/iextp/mod.rs:103-105 | the reserved byte does not affect the decoded header |
| Tops.MessageTag | src/iextp/tops.rs:16-32 | every message-type tag is an upper-case ASCII letter |
| Tops.DecodeMessageType | src/iextp/tops.rs:16-32 | a byte decodes to the type it tags; any byte no type has is an unknown-type error |
| Tops.MessageTagRoundTrip | src/iextp/tops.rs:16-32 | each type's tag decodes back to that type |
| Tops.MessageTagInjective | src/iextp/tops.rs:16-32 | the ten tags are pairwise distinct |
| Tops.DecodeMessageTypeDomain | src/iextp/tops.rs:16-32 | decoding succeeds exactly on the ten listed bytes |
| Tops.SystemEventCode | src/iextp/tops.rs:34-53 | every system-event code is an upper-case ASCII letter |
| Tops.DecodeSystemEvent | src/iextp/tops.rs:34-53 | a byte decodes to the event it codes; any other byte is an unknown-event error |
| Tops.SystemEventRoundTrip | src/iextp/tops.rs:34-53 | each event's code decodes back to that event |
| Tops.SystemEventCodeInjective | src/iextp/tops.rs:34-53 | the six codes are pairwise distinct |
| Tops.DecodeSystemEventDomain | src/iextp/tops.rs:34-53 | decoding succeeds exactly on the six listed bytes |
| Tops.CheckProtocol | src/iextp/tops.rs:4-5 | a protocol id is accepted exactly when it is 0x8002 (1.5) or 0x8003 (1.6); any other id is a mismatch |
| Tops.ProtocolRoundTrip | src/iextp/tops.rs:4-5 | each revision's id selects that revision, so the two ids differ |
| Decimal.NatToString | src/lib.rs:353 | `usize::to_string` is a canonical decimal: digits only, no leading zero |
| Decimal.NatRoundTrip | src/lib.rs:353 | the decimal of a count parses back to the count |
| Decimal.IntToString | src/lib.rs:172 | an `i32`'s `to_string` is non-empty, starts with `-` exactly for negatives, is digits after that, and is all digits for a non-negative value |
| Decimal.BoolToString | src/lib.rs:344-350 | the text of a chart flag; `Decimal.BoolRoundTrip` reads `true` and `false` back to their booleans |
| Decimal.IntRoundTrip | src/lib.rs:172 | the decimal of an `i32` parses back to it |
| Decimal.IntToStringInjective | src/lib.rs:172 | distinct news ranges render differently |
| Decimal.BoolRoundTrip | src/endpoints.rs:205-211 | a boolean's `Display` text parses back to it |
| Api.DurationString | src/lib.rs:41-56 | `Duration::to_string`; `Api.DurationStringShape`, `Api.DurationRoundTrip` and `Api.DurationStringInjective` state its shape, its inverse and that it is injective |
| Api.DurationStringShape | src/lib.rs:41-56 | a date renders as `date/` followed by the date; no other duration starts with `date/` |
| Api.DurationRoundTrip | src/lib.rs:41-56 | every duration is read back from its rendering |
| Api.ParseDurationSound | src/lib.rs:41-56 | what the parser accepts is exactly a rendering of what it returns |
| Api.DurationStringInjective | src/lib.rs:41-56 | distinct durations render differently |
| Api.DefaultDuration | src/lib.rs:58-62 | the default duration renders `1m` |
| Api.ListParamString | src/lib.rs:315-325 | every list name is at least 6 characters with no `/` |
| Api.ListParamRoundTrip | src/lib.rs:315-325 | every list name reads back to its list, so the five names differ |
| Api.ChartParamValue | src/lib.rs:342-355 | boolean parameters render `true`/`false` for their flag and counts render their decimal |
| Api.ChartPair | src/lib.rs:357-366 | `ChartParam::to_pair`; `Api.ChartPairRoundTrip` and `Api.ChartPairKeyDistinct` state that the pair determines the parameter and the key its kind |
| Api.ChartPairRoundTrip | src/lib.rs:341-366 | every chart parameter is read back from its (key, value) pair |
| Api.ChartPairKeyDistinct | src/lib.rs:357-366 | two parameters share a key exactly when they are of the same kind |
| Api.RequestPath | src/lib.rs:147-197 | `Request::to_string`; not injective, so the lemmas below state its shape, its symbol segment and its relation to `to_endpoint` |
| Api.RequestPathShape | src/lib.rs:147-197 | only `Symbols` is rooted at `/`; every other path starts with `stock/` |
| Api.SymbolPathSplit | src/lib.rs:150-194 | the resource after `stock/<symbol>/` does not depend on the symbol: replacing the symbol by any `s` gives `stock/`, `s`, `/` and the same resource |
| Api.SymbolOfRequestPath | src/lib.rs:150-194 | the symbol is read back from the path when it has no `/` of its own |
| Api.RequestPathCollision | src/lib.rs:150-158 | two different requests, a book for symbol `a/chart/date/x` and a chart for `a` over date `x/book`, render the same path |
| Api.ChartIgnoresParams | src/lib.rs:151-158 | the chart path does not depend on the chart parameters |
| Api.NewsPath | src/lib.rs:169-173 | a news path ends in `news/last/`, followed by the decimal range when one is given |
| Api.ThresholdSecuritiesWithoutDate | src/lib.rs:190-193 | without a date the path ends in `threshold-securities/date/`, as for an empty date |
| Endpoints.DurationString | src/endpoints.rs:138-156 | `Duration::to_string` of `endpoints.rs`; `Endpoints.DurationStringAgrees` and `Endpoints.DurationStringInjective` relate it to `lib.rs` and prove it injective |
| Endpoints.DurationStringAgrees | src/endpoints.rs:138-156 | `None` alone renders empty; every other duration renders as its `lib.rs` namesake |
| Endpoints.DurationStringInjective | src/endpoints.rs:138-156 | distinct durations render differently |
| Endpoints.DefaultDuration | src/endpoints.rs:158-162 | the default duration renders `1m` and is the same month as the `lib.rs` default |
| Endpoints.ListParamString | src/endpoints.rs:173-185 | each list name agrees with its `lib.rs` namesake |
| Endpoints.ListParamStringInjective | src/endpoints.rs:173-185 | the five list names are pairwise distinct |
| Endpoints.ChartParamString | src/endpoints.rs:201-213 | `ChartParam::to_string`; `Endpoints.ChartParamStringIsPair` and `Endpoints.ChartParamStringRoundTrip` state it is the `lib.rs` pair joined by `=` and that it is read back |
| Endpoints.ChartParamStringIsPair | src/endpoints.rs:201-213 | a parameter renders as the key and value `lib.rs` pairs it with, joined by `=` |
| Endpoints.ChartParamStringRoundTrip | src/endpoints.rs:201-213 | a rendered parameter has no `/` and reads back to the parameter |
| Endpoints.ChartQuery | src/endpoints.rs:62-71 | the chart query, each parameter followed by `/`; `Endpoints.ChartQuerySplits` and `Endpoints.ChartQueryInjective` state that it is cut back into the parameters |
| Endpoints.ChartQuerySplits | src/endpoints.rs:62-71 | cutting the chart query at each `/` gives back each parameter's text, in order |
| Endpoints.ChartQueryInjective | src/endpoints.rs:62-71 | different parameter lists give different queries |
| Endpoints.ChartEndpoint | src/endpoints.rs:56-72 | a chart endpoint is `chart/<duration>?` followed by the query; an empty list equals none |
| Endpoints.ThresholdSecuritiesWithoutDate | src/endpoints.rs:113-116 | without a date the endpoint is exactly `threshold-securities/` |
| Endpoints.ToEndpoint | src/endpoints.rs:49-120 | `StocksEndpoint::to_endpoint`; `Endpoints.EndpointShape` and `Endpoints.RequestPathIsScopedEndpoint` state its shape and that it is the `lib.rs` path without the `stock/` scope |
| Endpoints.EndpointShape | src/endpoints.rs:53-119 | no endpoint path is empty or starts with `/` or `stock/` |
| Endpoints.RequestPathIsScopedEndpoint | src/endpoints.rs:53-119 | for every request other than `Chart`, `Symbols` and `ThresholdSecurities`, the `lib.rs` path is its endpoint's path behind `stock/<symbol>/`, or `stock/market/` for a list |
| Endpoints.ChartRequestIsEndpointWithoutQuery | src/endpoints.rs:56-72 | a `lib.rs` chart path is the chart endpoint's path without its `?` |
| Endpoints.ThresholdSecuritiesWithDate | src/endpoints.rs:113-116 | with a date both files render the same path behind `stock/market/` |
| Endpoints.ThresholdSecuritiesDiverge | src/endpoints.rs:113-116 | without a date `lib.rs` appends `date/` where `endpoints.rs` appends nothing |

## Left out

- Calendar conversion through chrono (`NaiveDateTime::from_timestamp`, `DateTime::from_utc`) and its panic on an out-of-range nanosecond count: the decoders stop at the `(secs, nanos)` pair.
- Unmarshal.ParsePrice: returns the scaled integer, not the `f64` quotient by 10000.0, because floating point is not modelled; `Price.Dollars` gives the exact rational value.
- Unmarshal.ParseString: the failure carries no `Utf8Error` details (`valid_up_to`, `error_len`), because only validity is modelled.
- Segment.DecodeHeader: models the declared field layout, because `SegmentHeader::unmarshall` has an empty body; the `Segment` struct and message-envelope splitting are commented out or absent.
- Tops.DecodeMessageType: the source has no decoder for message types; the member inverts the enum's declared discriminants (`src/iextp/tops.rs:16-32`), and its `UnknownMessageType` error is the model's own.
- Tops.DecodeSystemEvent: the source has no decoder for system events; the member inverts the enum's declared codes (`src/iextp/tops.rs:34-53`), and its `UnknownSystemEvent` error is the model's own.
- Tops.CheckProtocol: the source declares the two message protocol ids (`src/iextp/tops.rs:4-5`) but never checks them; the member checks an id against them, and its `ProtocolMismatch` error is the model's own.
- `SEM_Builder` is an empty struct, so `SystemEventMessage` is a record with no decoder.
- `Client::new`, `Client::types`, `Client::symbols` and `Client::build_url`: URL building goes through the `url` crate.
- `Response::try_into`: serde_json deserialisation.
- The `Endpoint` trait is not part of this model; `to_endpoint` is a standalone function.
- The `types` module is not part of this model.
- `usize` is taken as 64 bits wide.
- `ChannelID` and `FeedName` are constants only (`Tops.ChannelId`, `Tops.FeedName`); no code uses them.
- The commented-out tests and request code of `src/lib.rs`, and the unimplemented `test_parse_event_time`.

=== FILE: api.dfy ===
/**
 The REST request paths of the crate root: `Duration`, `ListParam` and
 `ChartParam` rendered to text, and `Request` rendered to a path under
 `stock/`. Each renderer comes with a parser that reads its output back.
 */
module Api {
  import opened Wrappers
  import opened ByteOrder
  import opened Text
  import Decimal

  /** `usize`, taken as 64 bits wide. */
  type usize = uint64

  /** The time range of a chart, dividend or split query. */
  datatype Duration =
    | FiveYears
    | TwoYears
    | OneYear
    | YearToDate
    | SixMonths
    | ThreeMonths
    | OneMonth
    | OneDay
    | Date(date: string)
    | Dynamic

  /** `Duration::to_string`. */
  function DurationString(d: Duration): string
  {
    match d
    case FiveYears => "5y"
    case TwoYears => "2y"
    case OneYear => "1y"
    case YearToDate => "ytd"
    case SixMonths => "6m"
    case ThreeMonths => "3m"
    case OneMonth => "1m"
    case OneDay => "1d"
    case Date(date) => "date/" + date
    case Dynamic => "dynamic"
  }

  /** A date renders as a `date/` path holding the date, every other duration as a short code. */
  lemma DurationStringShape(d: Duration)
    ensures d.Date? <==> StartsWith(DurationString(d), "date/")
    ensures d.Date? ==> DurationString(d)[5..] == d.date
    ensures !d.Date? ==> 2 <= |DurationString(d)| <= 7
  {
    if d.Dynamic? {
      assert DurationString(d)[1] != "date/"[1];
    }
  }

  /** Reads a rendered duration back. */
  function ParseDuration(s: string): Option<Duration>
  {
    if StartsWith(s, "date/") then Some(Date(s[5..]))
    else if s == "5y" then Some(FiveYears)
    else if s == "2y" then Some(TwoYears)
    else if s == "1y" then Some(OneYear)
    else if s == "ytd" then Some(YearToDate)
    else if s == "6m" then Some(SixMonths)
    else if s == "3m" then Some(ThreeMonths)
    else if s == "1m" then Some(OneMonth)
    else if s == "1d" then Some(OneDay)
    else if s == "dynamic" then Some(Dynamic)
    else None
  }

  /** Every duration is read back from its rendering. */
  lemma DurationRoundTrip(d: Duration)
    ensures ParseDuration(DurationString(d)) == Some(d)
  {
    DurationStringShape(d);
  }

  /** What the parser accepts is exactly a rendering, of the duration it returns. */
  lemma ParseDurationSound(s: string)
    ensures ParseDuration(s).Some? ==> DurationString(ParseDuration(s).value) == s
  {
    if StartsWith(s, "date/") {
      assert s == "date/" + s[5..];
    }
  }

  /** Distinct durations render differently (the nine codes differ, and none starts with `date/`). */
  lemma DurationStringInjective(d1: Duration, d2: Duration)
    requires DurationString(d1) == DurationString(d2)
    ensures d1 == d2
  {
    DurationRoundTrip(d1);
    DurationRoundTrip(d2);
  }

  /** `Duration::default()`: one month. */
  function DefaultDuration(): (d: Duration)
    ensures DurationString(d) == "1m"
  {
    OneMonth
  }

  /** The market lists a `List` request can name. */
  datatype ListParam = MostActive | Gainers | Losers | IexVolume | IexPercent

  /** `ListParam::to_string`. */
  function ListParamString(p: ListParam): (r: string)
    ensures |r| >= 6 && '/' !in r
  {
    match p
    case MostActive => "mostactive"
    case Gainers => "gainers"
    case Losers => "losers"
    case IexVolume => "iexvolume"
    case IexPercent => "iexpercent"
  }

  function ParseListParam(s: string): Option<ListParam>
  {
    if s == "mostactive" then Some(MostActive)
    else if s == "gainers" then Some(Gainers)
    else if s == "losers" then Some(Losers)
    else if s == "iexvolume" then Some(IexVolume)
    else if s == "iexpercent" then Some(IexPercent)
    else None
  }

  /** Every list name is read back from its rendering, so the five names are pairwise distinct. */
  lemma ListParamRoundTrip(p: ListParam)
    ensures ParseListParam(ListParamString(p)) == Some(p)
  {
  }

  /** Query parameters of a chart request. */
  datatype ChartParam =
    | Reset(flag: bool)
    | Simplify(flag: bool)
    | Interval(count: usize)
    | ChangeFromClose(flag: bool)
    | Last(count: usize)

  /** `ChartParam::to_str`: the parameter's value as text. */
  function ChartParamValue(p: ChartParam): (r: string)
    ensures (p.Reset? || p.Simplify? || p.ChangeFromClose?) ==> Decimal.ParseBool(r) == Some(p.flag)
    ensures (p.Interval? || p.Last?) ==> Decimal.ParseNat(r) == Some(p.count)
  {
    match p
    case Reset(v) => Decimal.BoolToString(v)
    case Simplify(v) => Decimal.BoolToString(v)
    case ChangeFromClose(v) => Decimal.BoolToString(v)
    case Interval(v) =>
      Decimal.NatRoundTrip(v);
      Decimal.NatToString(v)
    case Last(v) =>
      Decimal.NatRoundTrip(v);
      Decimal.NatToString(v)
  }

  /** `ChartParam::to_pair`: the query key of the parameter's kind, and its value. */
  function ChartPair(p: ChartParam): (string, string)
  {
    var key :=
      match p
      case Reset(_) => "chartReset"
      case Simplify(_) => "chartSimplify"
      case Interval(_) => "chartInterval"
      case ChangeFromClose(_) => "changeFromClose"
      case Last(_) => "chartLast";
    (key, ChartParamValue(p))
  }

  /** Reads a (key, value) query pair back into a chart parameter. */
  function ParseChartPair(key: string, value: string): Option<ChartParam>
  {
    if key == "chartReset" || key == "chartSimplify" || key == "changeFromClose" then
      match Decimal.ParseBool(value)
      case None => None
      case Some(b) =>
        if key == "chartReset" then Some(Reset(b))
        else if key == "chartSimplify" then Some(Simplify(b))
        else Some(ChangeFromClose(b))
    else if key == "chartInterval" || key == "chartLast" then
      match Decimal.ParseNat(value)
      case None => None
      case Some(n) =>
        if n >= TWO_64 then None
        else if key == "chartInterval" then Some(Interval(n))
        else Some(Last(n))
    else
      None
  }

  /** Every chart parameter is read back from its pair. */
  lemma ChartPairRoundTrip(p: ChartParam)
    ensures ParseChartPair(ChartPair(p).0, ChartPair(p).1) == Some(p)
  {
  }

  /** Two parameters share a key exactly when they are of the same kind. */
  lemma ChartPairKeyDistinct(p: ChartParam, q: ChartParam)
    ensures ChartPair(p).0 == ChartPair(q).0 <==>
      (p.Reset? && q.Reset?) || (p.Simplify? && q.Simplify?) || (p.Interval? && q.Interval?)
      || (p.ChangeFromClose? && q.ChangeFromClose?) || (p.Last? && q.Last?)
  {
  }

  /** A request to the IEX API. */
  datatype Request =
    | Book(symbol: string)
    | Chart(symbol: string, duration: Duration, params: Option<seq<ChartParam>>)
    | Company(symbol: string)
    | DelayedQuote(symbol: string)
    | Dividends(symbol: string, duration: Duration)
    | Earnings(symbol: string)
    | EffectiveSpread(symbol: string)
    | Financials(symbol: string)
    | List(param: ListParam)
    | Logo(symbol: string)
    | News(symbol: string, range: Option<int32>)
    | Ohlc(symbol: string)
    | Peers(symbol: string)
    | Previous(symbol: string)
    | Price(symbol: string)
    | Quote(symbol: string)
    | Relevant(symbol: string)
    | Splits(symbol: string, duration: Duration)
    | Stats(symbol: string)
    | Symbols
    | ThresholdSecurities(date: Option<Duration>)
    | VolumeByVenue(symbol: string)

  /** The requests that name a symbol. */
  predicate HasSymbol(r: Request)
  {
    !(r.List? || r.Symbols? || r.ThresholdSecurities?)
  }

  /** What follows `stock/<symbol>/` in the path of a request that names a symbol. */
  function Resource(r: Request): string
    requires HasSymbol(r)
  {
    match r
    case Book(_) => "book"
    case Chart(_, d, _) => "chart/" + DurationString(d)
    case Company(_) => "company"
    case DelayedQuote(_) => "delayed-quote"
    case Dividends(_, d) => "dividends/" + DurationString(d)
    case Earnings(_) => "earnings"
    case EffectiveSpread(_) => "effective-spread"
    case Financials(_) => "financials"
    case Logo(_) => "logo"
    case News(_, range) => "news/last/" + (match range case Some(n) => Decimal.IntToString(n) case None => "")
    case Ohlc(_) => "ohlc"
    case Peers(_) => "peers"
    case Previous(_) => "previous"
    case Price(_) => "price"
    case Quote(_) => "quote"
    case Relevant(_) => "relevant"
    case Stats(_) => "stats"
    case Splits(_, d) => "splits/" + DurationString(d)
    case VolumeByVenue(_) => "volume-by-venue"
  }

  /**
   `Request::to_string`: the request's path. Every request that names a symbol
   renders as `stock/<symbol>/<resource>`; the market-wide ones sit under
   `stock/market/`, and only `Symbols` is rooted at `/`.
   */
  function RequestPath(r: Request): string
  {
    match r
    case List(param) => "stock/market/" + "list/" + ListParamString(param)
    case Symbols => "/ref-data/symbols"
    case ThresholdSecurities(date) =>
      "stock/market/" + "threshold-securities/" + DurationString(match date case Some(d) => d case None => Date(""))
    case _ => "stock/" + r.symbol + "/" + Resource(r)
  }

  /** Only `Symbols` is rooted at `/`; every other path starts with `stock/`. */
  lemma RequestPathShape(r: Request)
    ensures |RequestPath(r)| > 0 && (r.Symbols? <==> RequestPath(r)[0] == '/')
    ensures !r.Symbols? ==> StartsWith(RequestPath(r), "stock/")
  {
    var p := RequestPath(r);
    if r.List? || r.ThresholdSecurities? {
      assert p[..6] == "stock/";
    } else if !r.Symbols? {
      SymbolPathSplit(r, r.symbol);
    }
  }

  /**
   The resource part of a symbol request does not depend on the symbol: putting
   any symbol `s` in its place only changes the segment after `stock/`.
   */
  lemma SymbolPathSplit(r: Request, s: string)
    requires HasSymbol(r)
    ensures HasSymbol(r.(symbol := s)) && Resource(r.(symbol := s)) == Resource(r)
    ensures RequestPath(r.(symbol := s)) == "stock/" + (s + "/" + Resource(r))
  {
    AppendAssoc("stock/" + s, "/", Resource(r));
    AppendAssoc("stock/", s, "/" + Resource(r));
    AppendAssoc(s, "/", Resource(r));
  }

  /** The symbol segment of a `stock/<symbol>/...` path. */
  function SymbolOf(path: string): Option<string>
  {
    if StartsWith(path, "stock/") then Some(Before(path[6..], '/')) else None
  }

  /** The symbol of a request is read back from its path, when it has no `/` of its own. */
  lemma SymbolOfRequestPath(r: Request)
    requires HasSymbol(r) && '/' !in r.symbol
    ensures SymbolOf(RequestPath(r)) == Some(r.symbol)
  {
    SymbolPathSplit(r, r.symbol);
    assert RequestPath(r)[6..] == r.symbol + "/" + Resource(r);
    BeforeSeparator(r.symbol, '/', Resource(r));
  }

  /** The chart path does not depend on the chart parameters. */
  lemma ChartIgnoresParams(s: string, d: Duration, ps1: Option<seq<ChartParam>>, ps2: Option<seq<ChartParam>>)
    ensures RequestPath(Chart(s, d, ps1)) == RequestPath(Chart(s, d, ps2))
  {
  }

  /**
   Request paths are not distinct: a symbol holding `/` can imitate another
   request's resource.
   */
  lemma RequestPathCollision(r1: Request, r2: Request)
    requires r1 == Book("a/chart/date/x") && r2 == Chart("a", Date("x/book"), None)
    ensures r1 != r2 && RequestPath(r1) == RequestPath(r2)
  {
    assert RequestPath(r1) == "stock/a/chart/date/x/book";
    assert RequestPath(r2) == "stock/" + "a" + "/" + ("chart/" + "date/" + "x/book");
  }

  /** A news path ends in `last/`, followed by the count when one is given. */
  lemma NewsPath(s: string, n: int32)
    ensures RequestPath(News(s, None)) == "stock/" + s + "/" + "news/last/"
    ensures RequestPath(News(s, Some(n))) == RequestPath(News(s, None)) + Decimal.IntToString(n)
  {
    AppendAssoc("stock/" + s + "/", "news/last/", Decimal.IntToString(n));
  }

  /** Without a date the threshold-securities path ends in an empty `date/` segment. */
  lemma ThresholdSecuritiesWithoutDate()
    ensures RequestPath(ThresholdSecurities(None)) == "stock/market/" + "threshold-securities/" + "date/"
    ensures RequestPath(ThresholdSecurities(None)) == RequestPath(ThresholdSecurities(Some(Date(""))))
  {
  }
}

=== FILE: byteorder.dfy ===
/**
 Fixed-width integers as the Rust source sees them: little-endian byte
 readings (the `byteorder` crate's `read_u32`/`read_u64`/`read_i64` over a
 `Cursor`), the two's-complement `as` casts between widths, and Rust's
 signed `/` and `%`, which round toward zero (Dafny's are Euclidean).
 */
module ByteOrder {
  import opened Wrappers

  type uint8 = x: int | 0 <= x < 0x100
  type uint16 = x: int | 0 <= x < 0x1_0000
  type uint32 = x: int | 0 <= x < 0x1_0000_0000
  type uint64 = x: int | 0 <= x < 0x1_0000_0000_0000_0000
  type int32 = x: int | -0x8000_0000 <= x < 0x8000_0000
  type int64 = x: int | -0x8000_0000_0000_0000 <= x < 0x8000_0000_0000_0000

  const TWO_31: nat := 0x8000_0000
  const TWO_32: nat := 0x1_0000_0000
  const TWO_63: nat := 0x8000_0000_0000_0000
  const TWO_64: nat := 0x1_0000_0000_0000_0000

  /** 256^n: the number of distinct n-byte strings. */
  function Pow256(n: nat): nat
  {
    if n == 0 then 1 else 256 * Pow256(n - 1)
  }

  /** The unsigned little-endian reading of `bs`: byte i weighs 256^i. */
  function LeUint(bs: seq<uint8>): (r: nat)
    ensures r < Pow256(|bs|)
  {
    if |bs| == 0 then 0 else bs[0] + 256 * LeUint(bs[1..])
  }

  /** The `width`-byte little-endian writing of `n` (the inverse of `LeUint`). */
  function LeBytes(n: nat, width: nat): (r: seq<uint8>)
    requires n < Pow256(width)
    ensures |r| == width
    ensures LeUint(r) == n
  {
    if width == 0 then []
    else
      var rest := LeBytes(n / 256, width - 1);
      var r := [(n % 256) as uint8] + rest;
      assert r[1..] == rest;
      r
  }

  /** Writing back what was read reproduces the bytes: `LeUint` loses nothing. */
  lemma {:induction false} LeBytesOfLeUint(bs: seq<uint8>)
    ensures LeBytes(LeUint(bs), |bs|) == bs
  {
    if |bs| > 0 {
      var tail := LeUint(bs[1..]);
      assert LeUint(bs) == bs[0] + 256 * tail;
      assert LeUint(bs) % 256 == bs[0];
      assert LeUint(bs) / 256 == tail;
      LeBytesOfLeUint(bs[1..]);
      assert bs == [bs[0]] + bs[1..];
    }
  }

  /** The reading of eight bytes, written out as a polynomial in 256. */
  lemma LeUintOf8(bs: seq<uint8>)
    requires |bs| == 8
    ensures LeUint(bs) == bs[0] as int + 0x100 * bs[1] as int + 0x1_0000 * bs[2] as int
      + 0x100_0000 * bs[3] as int + 0x1_0000_0000 * bs[4] as int + 0x100_0000_0000 * bs[5] as int
      + 0x1_0000_0000_0000 * bs[6] as int + 0x100_0000_0000_0000 * bs[7] as int
  {
    assert LeUint(bs[7..]) == bs[7] + 256 * LeUint(bs[8..]);
    assert LeUint(bs[6..]) == bs[6] + 256 * LeUint(bs[7..]);
    assert LeUint(bs[5..]) == bs[5] + 256 * LeUint(bs[6..]);
    assert LeUint(bs[4..]) == bs[4] + 256 * LeUint(bs[5..]);
    assert LeUint(bs[3..]) == bs[3] + 256 * LeUint(bs[4..]);
    assert LeUint(bs[2..]) == bs[2] + 256 * LeUint(bs[3..]);
    assert LeUint(bs[1..]) == bs[1] + 256 * LeUint(bs[2..]);
  }

  /**
   `Cursor::new(buf).read_uN::<LittleEndian>()` for an N of `width` bytes:
   reads the first `width` bytes, and fails (an end-of-file error) when
   `buf` is shorter.
   */
  function ReadUintLe(buf: seq<uint8>, width: nat): (r: Option<nat>)
    ensures r.Some? <==> width <= |buf|
    ensures r.Some? ==> r.value < Pow256(width) && LeBytes(r.value, width) == buf[..width]
  {
    if |buf| < width then None
    else
      LeBytesOfLeUint(buf[..width]);
      Some(LeUint(buf[..width]))
  }

  /** Rust's `u64 as i64`: the int64 congruent to `u` modulo 2^64. */
  function AsInt64(u: uint64): (r: int64)
    ensures (r - u) % TWO_64 == 0
    ensures r >= 0 <==> u < TWO_63
  {
    if u < TWO_63 then u else u - TWO_64
  }

  /** Rust's `i64 as u64`: the uint64 congruent to `i` modulo 2^64. */
  function AsUint64(i: int64): (r: uint64)
    ensures (r - i) % TWO_64 == 0
    ensures i >= 0 ==> r == i
  {
    i % TWO_64
  }

  /** Rust's `u32 as i32`. */
  function AsInt32(u: uint32): (r: int32)
    ensures (r - u) % TWO_32 == 0
    ensures r >= 0 <==> u < TWO_31
  {
    if u < TWO_31 then u else u - TWO_32
  }

  /** Distinct `u32`s stay distinct as `i32`s. */
  lemma AsInt32Injective(a: uint32, b: uint32)
    requires AsInt32(a) == AsInt32(b)
    ensures a == b
  {
  }

  /** Rust's `as u32` applied to a signed value: keeps its low 32 bits. */
  function AsUint32(i: int): (r: uint32)
    ensures (r - i) % TWO_32 == 0
  {
    i % TWO_32
  }

  /** The two 64-bit casts undo each other. */
  lemma Int64CastsRoundTrip(u: uint64, i: int64)
    ensures AsUint64(AsInt64(u)) == u
    ensures AsInt64(AsUint64(i)) == i
  {
  }

  /** Rust's signed `/` with a positive divisor: the quotient rounded toward zero. */
  function TruncDiv(a: int, b: int): int
    requires b > 0
  {
    if a >= 0 then a / b else -((-a) / b)
  }

  /** Rust's signed `%` with a positive divisor: the remainder takes the sign of `a`. */
  function TruncRem(a: int, b: int): int
    requires b > 0
  {
    if a >= 0 then a % b else -((-a) % b)
  }

  /** Euclid's division of a non-negative dividend. */
  lemma EuclidNonNegative(n: int, b: int)
    requires n >= 0 && b > 0
    ensures b * (n / b) + n % b == n
    ensures 0 <= n % b < b && n / b >= 0
  {
  }

  /**
   The truncating pair is Euclid's division with the remainder's sign
   following the dividend; these facts determine both results.
   */
  lemma TruncDivRem(a: int, b: int)
    requires b > 0
    ensures b * TruncDiv(a, b) + TruncRem(a, b) == a
    ensures -b < TruncRem(a, b) < b
    ensures a >= 0 ==> TruncRem(a, b) >= 0 && TruncDiv(a, b) >= 0
    ensures a < 0 ==> TruncRem(a, b) <= 0 && TruncDiv(a, b) <= 0
  {
    if a >= 0 {
      EuclidNonNegative(a, b);
    } else {
      EuclidNonNegative(-a, b);
      var q := (-a) / b;
      assert b * (-q) == -(b * q);
    }
  }

  /**
   Only the truncating pair splits `a` this way: a quotient and a remainder
   smaller than `b` in magnitude whose sign follows the dividend's.
   */
  lemma TruncSplitUnique(a: int, b: int, q: int, r: int)
    requires b > 0
    requires b * q + r == a && -b < r < b
    requires a >= 0 ==> r >= 0
    requires a < 0 ==> r <= 0
    ensures q == TruncDiv(a, b) && r == TruncRem(a, b)
  {
    TruncDivRem(a, b);
    var d := q - TruncDiv(a, b);
    assert b * d == TruncRem(a, b) - r;
    MultipleBound(b, d);
  }

  /** A non-zero multiple of `b` is at least `b` in magnitude. */
  lemma MultipleBound(b: int, d: int)
    requires b > 0
    ensures d >= 1 ==> b * d >= b
    ensures d <= -1 ==> b * d <= -b
  {
    if d >= 1 {
      assert b * d == b + b * (d - 1);
    } else if d <= -1 {
      assert b * d == -b + b * (d + 1);
    }
  }
}

=== FILE: decimal.dfy ===
/**
 Rust's `Display` for the scalar values the REST paths embed: integers
 (`usize`, `i32`) in shortest decimal, and `bool` as `true`/`false`. Each
 rendering comes with a parser that recovers the value from the text.
 */
module Decimal {
  import opened Wrappers

  predicate IsDigit(c: char)
  {
    '0' <= c <= '9'
  }

  predicate AllDigits(s: string)
  {
    forall i :: 0 <= i < |s| ==> IsDigit(s[i])
  }

  function DigitChar(d: nat): char
    requires d < 10
  {
    ('0' as int + d) as char
  }

  function DigitValue(c: char): (d: nat)
    requires IsDigit(c)
    ensures d < 10 && DigitChar(d) == c
  {
    c as int - '0' as int
  }

  /** The shortest decimal writing of `n`: digits only, no leading zero. */
  function NatToString(n: nat): (r: string)
    ensures |r| >= 1 && AllDigits(r)
    ensures r[0] == '0' <==> n == 0
    ensures n == 0 ==> r == "0"
  {
    if n < 10 then [DigitChar(n)] else NatToString(n / 10) + [DigitChar(n % 10)]
  }

  /** The number a string of decimal digits denotes (most significant first). */
  function DigitsValue(s: string): nat
    requires AllDigits(s)
  {
    if |s| == 0 then 0 else DigitsValue(s[..|s| - 1]) * 10 + DigitValue(s[|s| - 1])
  }

  /** Reading back a rendered number gives the number. */
  lemma {:induction false} NatToStringValue(n: nat)
    ensures DigitsValue(NatToString(n)) == n
  {
    if n >= 10 {
      var r := NatToString(n);
      var init := NatToString(n / 10);
      assert r[..|r| - 1] == init;
      NatToStringValue(n / 10);
    }
  }

  /** Rust's `Display` for a signed integer: a `-` before the magnitude when negative. */
  function IntToString(i: int): (r: string)
    ensures |r| >= 1
    ensures r[0] == '-' <==> i < 0
    ensures forall k :: 0 < k < |r| ==> IsDigit(r[k])
    ensures i >= 0 ==> AllDigits(r)
  {
    if i < 0 then "-" + NatToString(-i) else NatToString(i)
  }

  /** Parses canonical decimal text: digits without a leading zero, or `0`. */
  function ParseNat(s: string): (r: Option<nat>)
    ensures r.Some? ==> |s| >= 1 && AllDigits(s)
  {
    if |s| >= 1 && AllDigits(s) && (s[0] != '0' || |s| == 1) then Some(DigitsValue(s)) else None
  }

  /** Parses canonical signed decimal text; `-0` is not canonical. */
  function ParseInt(s: string): Option<int>
  {
    if |s| >= 1 && s[0] == '-' then
      match ParseNat(s[1..])
      case Some(n) => if n == 0 then None else Some(-(n as int))
      case None => None
    else
      match ParseNat(s)
      case Some(n) => Some(n)
      case None => None
  }

  /** Every natural number renders to text its parser maps back to it. */
  lemma NatRoundTrip(n: nat)
    ensures ParseNat(NatToString(n)) == Some(n)
  {
    NatToStringValue(n);
  }

  /** Every integer renders to text its parser maps back to it. */
  lemma IntRoundTrip(i: int)
    ensures ParseInt(IntToString(i)) == Some(i)
  {
    if i < 0 {
      NatRoundTrip(-i);
      assert IntToString(i)[1..] == NatToString(-i);
    } else {
      NatRoundTrip(i);
    }
  }

  /** Distinct integers render differently. */
  lemma IntToStringInjective(a: int, b: int)
    requires IntToString(a) == IntToString(b)
    ensures a == b
  {
    IntRoundTrip(a);
    IntRoundTrip(b);
  }

  /** Rust's `Display` for `bool`. */
  function BoolToString(b: bool): string
  {
    if b then "true" else "false"
  }

  function ParseBool(s: string): Option<bool>
  {
    if s == "true" then Some(true) else if s == "false" then Some(false) else None
  }

  lemma BoolRoundTrip(b: bool)
    ensures ParseBool(BoolToString(b)) == Some(b)
  {
  }
}

=== FILE: endpoints.dfy ===
/**
 The stock endpoints of `endpoints.rs`: `StocksEndpoint` rendered to a
 relative endpoint path, with the module's own `Duration` (which adds a
 `None` variant), `ListParam` and `ChartParam`. The renderings are related
 to the crate root's ones, and a request's path under `stock/` is shown to
 be its endpoint's path behind `stock/<symbol>/` or `stock/market/`.
 */
module Endpoints {
  import W = Wrappers
  import opened ByteOrder
  import opened Text
  import Decimal
  import Api

  /** This module's duration: the crate root's variants plus `None`. */
  datatype Duration =
    | FiveYears
    | TwoYears
    | OneYear
    | YearToDate
    | SixMonths
    | ThreeMonths
    | OneMonth
    | OneDay
    | Date(date: string)
    | Dynamic
    | None

  /** The crate root's duration with the same name. */
  function ToApiDuration(d: Duration): Api.Duration
    requires !d.None?
  {
    match d
    case FiveYears => Api.FiveYears
    case TwoYears => Api.TwoYears
    case OneYear => Api.OneYear
    case YearToDate => Api.YearToDate
    case SixMonths => Api.SixMonths
    case ThreeMonths => Api.ThreeMonths
    case OneMonth => Api.OneMonth
    case OneDay => Api.OneDay
    case Date(date) => Api.Date(date)
    case Dynamic => Api.Dynamic
  }

  /** This module's duration with the same name as a crate-root one. */
  function FromApiDuration(d: Api.Duration): (r: Duration)
    ensures !r.None? && ToApiDuration(r) == d
  {
    match d
    case FiveYears => FiveYears
    case TwoYears => TwoYears
    case OneYear => OneYear
    case YearToDate => YearToDate
    case SixMonths => SixMonths
    case ThreeMonths => ThreeMonths
    case OneMonth => OneMonth
    case OneDay => OneDay
    case Date(date) => Date(date)
    case Dynamic => Dynamic
  }

  /**
   `Duration::to_string`: `None` renders as nothing, and every other variant
   as the crate root's namesake does.
   */
  function DurationString(d: Duration): string
  {
    match d
    case FiveYears => "5y"
    case TwoYears => "2y"
    case OneYear => "1y"
    case YearToDate => "ytd"
    case SixMonths => "6m"
    case ThreeMonths => "3m"
    case OneMonth => "1m"
    case OneDay => "1d"
    case Date(date) => "date/" + date
    case Dynamic => "dynamic"
    case None => ""
  }

  /** Only `None` renders as nothing; every other duration renders as its crate-root namesake. */
  lemma DurationStringAgrees(d: Duration)
    ensures d.None? <==> DurationString(d) == ""
    ensures !d.None? ==> DurationString(d) == Api.DurationString(ToApiDuration(d))
  {
  }

  /** Distinct durations render differently. */
  lemma DurationStringInjective(d1: Duration, d2: Duration)
    requires DurationString(d1) == DurationString(d2)
    ensures d1 == d2
  {
    DurationStringAgrees(d1);
    DurationStringAgrees(d2);
    if !d1.None? && !d2.None? {
      Api.DurationStringInjective(ToApiDuration(d1), ToApiDuration(d2));
      assert FromApiDuration(ToApiDuration(d1)) == d1;
      assert FromApiDuration(ToApiDuration(d2)) == d2;
    }
  }

  /** `Duration::default()`: one month. */
  function DefaultDuration(): (d: Duration)
    ensures !d.None? && ToApiDuration(d) == Api.DefaultDuration() && DurationString(d) == "1m"
  {
    OneMonth
  }

  /** The market lists a `List` endpoint can name. */
  datatype ListParam = MostActive | Gainers | Losers | IexVolume | IexPercent

  function ToApiListParam(p: ListParam): Api.ListParam
  {
    match p
    case MostActive => Api.MostActive
    case Gainers => Api.Gainers
    case Losers => Api.Losers
    case IexVolume => Api.IexVolume
    case IexPercent => Api.IexPercent
  }

  /** `ListParam::to_string`: the same names the crate root uses. */
  function ListParamString(p: ListParam): (r: string)
    ensures r == Api.ListParamString(ToApiListParam(p))
  {
    match p
    case MostActive => "mostactive"
    case Gainers => "gainers"
    case Losers => "losers"
    case IexVolume => "iexvolume"
    case IexPercent => "iexpercent"
  }

  /** The five list names are pairwise distinct. */
  lemma ListParamStringInjective(p: ListParam, q: ListParam)
    requires ListParamString(p) == ListParamString(q)
    ensures p == q
  {
    Api.ListParamRoundTrip(ToApiListParam(p));
    Api.ListParamRoundTrip(ToApiListParam(q));
  }

  /** Query parameters of a chart endpoint. */
  datatype ChartParam =
    | Reset(flag: bool)
    | Simplify(flag: bool)
    | Interval(count: Api.usize)
    | ChangeFromClose(flag: bool)
    | Last(count: Api.usize)

  function ToApiChartParam(p: ChartParam): Api.ChartParam
  {
    match p
    case Reset(b) => Api.Reset(b)
    case Simplify(b) => Api.Simplify(b)
    case Interval(n) => Api.Interval(n)
    case ChangeFromClose(b) => Api.ChangeFromClose(b)
    case Last(n) => Api.Last(n)
  }

  function FromApiChartParam(p: Api.ChartParam): (r: ChartParam)
    ensures ToApiChartParam(r) == p
  {
    match p
    case Reset(b) => Reset(b)
    case Simplify(b) => Simplify(b)
    case Interval(n) => Interval(n)
    case ChangeFromClose(b) => ChangeFromClose(b)
    case Last(n) => Last(n)
  }

  /**
   `ChartParam::to_string`: `key=value`, with the key and the value the crate
   root's `to_pair` gives the same parameter.
   */
  function ChartParamString(p: ChartParam): string
  {
    match p
    case Reset(b) => "chartReset=" + Decimal.BoolToString(b)
    case Simplify(b) => "chartSimplify=" + Decimal.BoolToString(b)
    case Interval(n) => "chartInterval=" + Decimal.NatToString(n)
    case ChangeFromClose(b) => "changeFromClose=" + Decimal.BoolToString(b)
    case Last(n) => "chartLast=" + Decimal.NatToString(n)
  }

  /** A parameter renders as the crate root's key and value for it, joined by `=`. */
  lemma ChartParamStringIsPair(p: ChartParam)
    ensures ChartParamString(p) == Api.ChartPair(ToApiChartParam(p)).0 + "=" + Api.ChartPair(ToApiChartParam(p)).1
  {
    match p
    case Reset(_) => assert "chartReset" + "=" == "chartReset=";
    case Simplify(_) => assert "chartSimplify" + "=" == "chartSimplify=";
    case Interval(_) => assert "chartInterval" + "=" == "chartInterval=";
    case ChangeFromClose(_) => assert "changeFromClose" + "=" == "changeFromClose=";
    case Last(_) => assert "chartLast" + "=" == "chartLast=";
  }

  /** Reads `key=value` text back into a chart parameter. */
  function ParseChartParamString(s: string): W.Option<ChartParam>
  {
    var key := Before(s, '=');
    if |key| == |s| then W.None
    else
      match Api.ParseChartPair(key, s[|key| + 1..])
      case None => W.None
      case Some(p) => W.Some(FromApiChartParam(p))
  }

  /** A parameter's key has neither `=` nor `/`. */
  lemma ChartKeyCharacters(p: ChartParam)
    ensures '=' !in Api.ChartPair(ToApiChartParam(p)).0
    ensures '/' !in Api.ChartPair(ToApiChartParam(p)).0
  {
  }

  /** A parameter's value has no `/`. */
  lemma ChartValueCharacters(p: ChartParam)
    ensures '/' !in Api.ChartPair(ToApiChartParam(p)).1
  {
    var value := Api.ChartPair(ToApiChartParam(p)).1;
    if p.Interval? || p.Last? {
      assert Decimal.AllDigits(value);
    } else {
      assert value == "true" || value == "false";
    }
  }

  /** A rendered parameter has no `/` and is read back to the parameter. */
  lemma ChartParamStringRoundTrip(p: ChartParam)
    ensures '/' !in ChartParamString(p)
    ensures ParseChartParamString(ChartParamString(p)) == W.Some(p)
  {
    var key := Api.ChartPair(ToApiChartParam(p)).0;
    var value := Api.ChartPair(ToApiChartParam(p)).1;
    ChartKeyCharacters(p);
    ChartValueCharacters(p);
    ChartParamStringIsPair(p);
    var s := ChartParamString(p);
    assert s == key + ['='] + value;
    BeforeSeparator(key, '=', value);
    assert s[|key| + 1..] == value;
    Api.ChartPairRoundTrip(ToApiChartParam(p));
    assert FromApiChartParam(ToApiChartParam(p)) == p;
  }

  /** The collected chart parameters: each one's string followed by `/`. */
  function ChartQuery(ps: seq<ChartParam>): string
  {
    if |ps| == 0 then "" else ChartParamString(ps[0]) + "/" + ChartQuery(ps[1..])
  }

  /** Each parameter's string, in order. */
  function ChartParamStrings(ps: seq<ChartParam>): (r: seq<string>)
    ensures |r| == |ps|
    ensures forall i :: 0 <= i < |ps| ==> r[i] == ChartParamString(ps[i])
  {
    seq(|ps|, i requires 0 <= i < |ps| => ChartParamString(ps[i]))
  }

  /** The chart query is recovered, parameter by parameter, by cutting it at each `/`. */
  lemma {:induction false} ChartQuerySplits(ps: seq<ChartParam>)
    ensures SplitTerminated(ChartQuery(ps), '/') == W.Some(ChartParamStrings(ps))
  {
    QueryIsJoin(ps);
    forall i | 0 <= i < |ps|
      ensures '/' !in ChartParamStrings(ps)[i]
    {
      ChartParamStringRoundTrip(ps[i]);
    }
    SplitJoinTerminated(ChartParamStrings(ps), '/');
  }

  lemma {:induction false} QueryIsJoin(ps: seq<ChartParam>)
    ensures ChartQuery(ps) == JoinTerminated(ChartParamStrings(ps), '/')
  {
    if |ps| > 0 {
      QueryIsJoin(ps[1..]);
      assert ChartParamStrings(ps)[1..] == ChartParamStrings(ps[1..]);
    }
  }

  /** Different parameter lists give different chart queries. */
  lemma ChartQueryInjective(ps: seq<ChartParam>, qs: seq<ChartParam>)
    requires ChartQuery(ps) == ChartQuery(qs)
    ensures ps == qs
  {
    ChartQuerySplits(ps);
    ChartQuerySplits(qs);
    assert ChartParamStrings(ps) == ChartParamStrings(qs);
    forall i | 0 <= i < |ps|
      ensures ps[i] == qs[i]
    {
      ChartParamStringRoundTrip(ps[i]);
      ChartParamStringRoundTrip(qs[i]);
    }
  }

  /** The stock endpoints. */
  datatype StocksEndpoint =
    | Book
    | Chart(duration: Duration, params: W.Option<seq<ChartParam>>)
    | Company
    | DelayedQuote
    | Dividends(duration: Duration)
    | Earnings
    | EffectiveSpread
    | Financials
    | List(param: ListParam)
    | Logo
    | News(range: W.Option<int32>)
    | Ohlc
    | Peers
    | Previous
    | Price
    | Quote
    | Relevant
    | Splits(duration: Duration)
    | Stats
    | TimeSeries
    | ThresholdSecurities(date: W.Option<Duration>)
    | VolumeByVenue

  /** `StocksEndpoint::to_endpoint`: the endpoint's path, relative to a stock. */
  function ToEndpoint(e: StocksEndpoint): string
  {
    match e
    case Book => "book"
    case Chart(d, params) =>
      "chart/" + DurationString(d) + "?" + (match params case Some(ps) => ChartQuery(ps) case None => "")
    case Company => "company"
    case DelayedQuote => "delayed-quote"
    case Dividends(d) => "dividends/" + DurationString(d)
    case Earnings => "earnings"
    case EffectiveSpread => "effective-spread"
    case Financials => "financials"
    case List(param) => "list/" + ListParamString(param)
    case Logo => "logo"
    case News(range) => "news/last/" + (match range case Some(n) => Decimal.IntToString(n) case None => "")
    case Ohlc => "ohlc"
    case Peers => "peers"
    case Previous => "previous"
    case Price => "price"
    case Quote => "quote"
    case Relevant => "relevant"
    case Stats => "stats"
    case Splits(d) => "splits/" + DurationString(d)
    case TimeSeries => "time-series"
    case ThresholdSecurities(date) =>
      "threshold-securities/" + DurationString(match date case Some(d) => d case None => None)
    case VolumeByVenue => "volume-by-venue"
  }

  /** Endpoint paths are relative to a stock: none is empty, starts with `/` or starts with `stock/`. */
  lemma EndpointShape(e: StocksEndpoint)
    ensures |ToEndpoint(e)| > 0 && ToEndpoint(e)[0] != '/'
    ensures !StartsWith(ToEndpoint(e), "stock/")
  {
    var r := ToEndpoint(e);
    match e
    case Stats =>
    case Splits(_) => assert r[1] == 'p';
    case _ => assert r[0] != 's';
  }

  /**
   A chart endpoint ends in `?`, followed, when parameters are given, by
   each parameter's string and a `/`; an empty list is the same as none.
   */
  lemma ChartEndpoint(d: Duration, ps: seq<ChartParam>)
    ensures ToEndpoint(Chart(d, W.None)) == "chart/" + DurationString(d) + "?"
    ensures ToEndpoint(Chart(d, W.Some(ps))) == ToEndpoint(Chart(d, W.None)) + ChartQuery(ps)
    ensures ToEndpoint(Chart(d, W.Some([]))) == ToEndpoint(Chart(d, W.None))
  {
  }

  /** Without a date the threshold-securities path ends in an empty segment. */
  lemma ThresholdSecuritiesWithoutDate()
    ensures ToEndpoint(ThresholdSecurities(W.None)) == "threshold-securities/"
  {
  }

  /** The endpoint of a crate-root request, for the requests both files render the same way. */
  function FromRequest(r: Api.Request): StocksEndpoint
    requires !(r.Chart? || r.Symbols? || r.ThresholdSecurities?)
  {
    match r
    case Book(_) => Book
    case Company(_) => Company
    case DelayedQuote(_) => DelayedQuote
    case Dividends(_, d) => Dividends(FromApiDuration(d))
    case Earnings(_) => Earnings
    case EffectiveSpread(_) => EffectiveSpread
    case Financials(_) => Financials
    case List(p) => List(FromApiListParam(p))
    case Logo(_) => Logo
    case News(_, range) => News(match range case Some(n) => W.Some(n) case None => W.None)
    case Ohlc(_) => Ohlc
    case Peers(_) => Peers
    case Previous(_) => Previous
    case Price(_) => Price
    case Quote(_) => Quote
    case Relevant(_) => Relevant
    case Splits(_, d) => Splits(FromApiDuration(d))
    case Stats(_) => Stats
    case VolumeByVenue(_) => VolumeByVenue
  }

  function FromApiListParam(p: Api.ListParam): (r: ListParam)
    ensures ToApiListParam(r) == p
  {
    match p
    case MostActive => MostActive
    case Gainers => Gainers
    case Losers => Losers
    case IexVolume => IexVolume
    case IexPercent => IexPercent
  }

  /** Behind the symbol, a request and its endpoint render the same resource. */
  lemma ResourceIsEndpoint(r: Api.Request)
    requires Api.HasSymbol(r) && !r.Chart?
    ensures Api.Resource(r) == ToEndpoint(FromRequest(r))
  {
    if r.Dividends? || r.Splits? || r.News? {
      ParameterisedResourceIsEndpoint(r);
    } else if r.Book? || r.Company? || r.DelayedQuote? || r.Earnings? || r.EffectiveSpread? || r.Financials? {
      FixedResourceIsEndpoint(r);
    } else {
      OtherFixedResourceIsEndpoint(r);
    }
  }

  lemma ParameterisedResourceIsEndpoint(r: Api.Request)
    requires r.Dividends? || r.Splits? || r.News?
    ensures Api.Resource(r) == ToEndpoint(FromRequest(r))
  {
    match r
    case Dividends(_, d) => DurationStringAgrees(FromApiDuration(d));
    case Splits(_, d) => DurationStringAgrees(FromApiDuration(d));
    case News(_, _) =>
  }

  lemma FixedResourceIsEndpoint(r: Api.Request)
    requires r.Book? || r.Company? || r.DelayedQuote? || r.Earnings? || r.EffectiveSpread? || r.Financials?
    ensures Api.Resource(r) == ToEndpoint(FromRequest(r))
  {
  }

  lemma OtherFixedResourceIsEndpoint(r: Api.Request)
    requires r.Logo? || r.Ohlc? || r.Peers? || r.Previous? || r.Price? || r.Quote? || r.Relevant? || r.Stats? || r.VolumeByVenue?
    ensures Api.Resource(r) == ToEndpoint(FromRequest(r))
  {
  }

  /**
   The two renderers agree: a crate-root request's path is its endpoint's
   path behind `stock/<symbol>/`, or behind `stock/market/` for a list.
   */
  lemma RequestPathIsScopedEndpoint(r: Api.Request)
    requires !(r.Chart? || r.Symbols? || r.ThresholdSecurities?)
    ensures Api.RequestPath(r) == (if r.List? then "stock/market/" else "stock/" + r.symbol + "/") + ToEndpoint(FromRequest(r))
  {
    if r.List? {
      AppendAssoc("stock/market/", "list/", Api.ListParamString(r.param));
    } else {
      ResourceIsEndpoint(r);
    }
  }

  /** A chart request's path is the chart endpoint's without its `?` and query. */
  lemma ChartRequestIsEndpointWithoutQuery(s: string, d: Api.Duration, ps: W.Option<seq<Api.ChartParam>>)
    ensures Api.RequestPath(Api.Chart(s, d, ps)) + "?" == "stock/" + s + "/" + ToEndpoint(Chart(FromApiDuration(d), W.None))
  {
    DurationStringAgrees(FromApiDuration(d));
    AppendAssoc("stock/" + s + "/", "chart/" + Api.DurationString(d), "?");
  }

  /** With a date the two threshold-securities paths agree behind `stock/market/`. */
  lemma ThresholdSecuritiesWithDate(d: Api.Duration)
    ensures Api.RequestPath(Api.ThresholdSecurities(W.Some(d)))
      == "stock/market/" + ToEndpoint(ThresholdSecurities(W.Some(FromApiDuration(d))))
  {
    var x := Api.DurationString(d);
    DurationStringAgrees(FromApiDuration(d));
    assert ToEndpoint(ThresholdSecurities(W.Some(FromApiDuration(d)))) == "threshold-securities/" + x;
    assert Api.RequestPath(Api.ThresholdSecurities(W.Some(d))) == "stock/market/" + "threshold-securities/" + x;
    AppendAssoc("stock/market/", "threshold-securities/", x);
  }

  /** Without a date the crate root appends `date/` where this module appends nothing. */
  lemma ThresholdSecuritiesDiverge()
    ensures Api.RequestPath(Api.ThresholdSecurities(W.None))
      == "stock/market/" + ToEndpoint(ThresholdSecurities(W.None)) + "date/"
  {
    assert DurationString(None) == [];
    assert ToEndpoint(ThresholdSecurities(W.None)) == "threshold-securities/";
    assert Api.DurationString(Api.Date("")) == "date/";
  }
}

=== FILE: segment.dfy ===
/**
 The IEX-TP segment header. The source declares the header's fields but its
 `unmarshall` has an empty body, so the decoder here reads the declared
 fields at the offsets their declaration order and widths give, with the
 reserved byte after `version`, and the encoder writes them back.
 */
module Segment {
  import opened ByteOrder
  import opened Unmarshal

  /** The header's declared fields; the reserved byte has no field. */
  datatype SegmentHeader = SegmentHeader(
    version: uint8,
    messageProtocolId: uint16,
    channelId: uint32,
    sessionId: uint32,
    payloadLength: uint16,
    messageCount: uint16,
    streamOffset: int64,
    firstMessageSequenceNumber: int64,
    sendTime: Instant)

  /**
   Wire widths in bytes: version, the reserved byte, protocol id, channel id,
   session id, payload length, message count, stream offset, first sequence
   number, send time.
   */
  const FieldWidths: seq<nat> := [1, 1, 2, 4, 4, 2, 2, 8, 8, 8]

  /** Where each wire field starts; the last entry is where the header ends. */
  const FieldOffsets: seq<nat> := [0, 1, 2, 4, 8, 12, 14, 16, 24, 32, 40]

  /** Each field starts where the one before it ends, and together they fill the header. */
  lemma LayoutFillsHeader()
    ensures |FieldOffsets| == |FieldWidths| + 1 && FieldOffsets[0] == 0
    ensures forall i :: 0 <= i < |FieldWidths| ==> FieldOffsets[i + 1] == FieldOffsets[i] + FieldWidths[i]
    ensures FieldOffsets[|FieldWidths|] == SEGMENT_HEADER_SIZE as nat
  {
  }

  /** The bytes of wire field `i`. */
  function Field(buf: seq<uint8>, i: nat): (r: seq<uint8>)
    requires |buf| == SEGMENT_HEADER_SIZE as nat && i < |FieldWidths|
    ensures |r| == FieldWidths[i]
  {
    buf[FieldOffsets[i]..FieldOffsets[i + 1]]
  }

  /**
   Reads a header in declared order: raw bytes for the version, little-endian
   unsigned integers, two's-complement `i64`s for the stream offset and the
   sequence number, and `parse_timestamp` for the send time. Every byte but
   the reserved one is kept, so writing the header back reproduces the
   buffer with its reserved byte zeroed.
   */
  function DecodeHeader(buf: seq<uint8>): (h: SegmentHeader)
    requires |buf| == SEGMENT_HEADER_SIZE as nat
    ensures -(TWO_63 as int) <= TotalNanos(h.sendTime) < TWO_63
    ensures EncodeHeader(h) == buf[1 := 0]
    ensures h.sendTime == ParseTimestamp(Field(buf, 9))
  {
    var h := SegmentHeader(
      buf[0],
      LeUint(Field(buf, 2)),
      LeUint(Field(buf, 3)),
      LeUint(Field(buf, 4)),
      LeUint(Field(buf, 5)),
      LeUint(Field(buf, 6)),
      AsInt64(LeUint(Field(buf, 7))),
      AsInt64(LeUint(Field(buf, 8))),
      ParseTimestamp(Field(buf, 9)));
    EncodeOfDecode(buf, h);
    h
  }

  /** The 40 wire bytes of a header, the reserved byte written as zero. */
  function EncodeHeader(h: SegmentHeader): (r: seq<uint8>)
    requires -(TWO_63 as int) <= TotalNanos(h.sendTime) < TWO_63
    ensures |r| == SEGMENT_HEADER_SIZE as nat
  {
    [h.version, 0]
    + LeBytes(h.messageProtocolId, 2)
    + LeBytes(h.channelId, 4)
    + LeBytes(h.sessionId, 4)
    + LeBytes(h.payloadLength, 2)
    + LeBytes(h.messageCount, 2)
    + LeBytes(AsUint64(h.streamOffset), 8)
    + LeBytes(AsUint64(h.firstMessageSequenceNumber), 8)
    + TimestampBytes(h.sendTime)
  }

  /** The wire fields of an encoded header are the encodings of its fields. */
  lemma EncodeHeaderFields(h: SegmentHeader)
    requires -(TWO_63 as int) <= TotalNanos(h.sendTime) < TWO_63
    ensures var r := EncodeHeader(h);
      && r[0] == h.version && r[1] == 0
      && Field(r, 2) == LeBytes(h.messageProtocolId, 2)
      && Field(r, 3) == LeBytes(h.channelId, 4)
      && Field(r, 4) == LeBytes(h.sessionId, 4)
      && Field(r, 5) == LeBytes(h.payloadLength, 2)
      && Field(r, 6) == LeBytes(h.messageCount, 2)
      && Field(r, 7) == LeBytes(AsUint64(h.streamOffset), 8)
      && Field(r, 8) == LeBytes(AsUint64(h.firstMessageSequenceNumber), 8)
      && Field(r, 9) == TimestampBytes(h.sendTime)
  {
  }

  /** The proof behind `DecodeHeader`'s contract. */
  lemma EncodeOfDecode(buf: seq<uint8>, h: SegmentHeader)
    requires |buf| == SEGMENT_HEADER_SIZE as nat
    requires h == SegmentHeader(
      buf[0],
      LeUint(Field(buf, 2)),
      LeUint(Field(buf, 3)),
      LeUint(Field(buf, 4)),
      LeUint(Field(buf, 5)),
      LeUint(Field(buf, 6)),
      AsInt64(LeUint(Field(buf, 7))),
      AsInt64(LeUint(Field(buf, 8))),
      ParseTimestamp(Field(buf, 9)))
    ensures -(TWO_63 as int) <= TotalNanos(h.sendTime) < TWO_63
    ensures EncodeHeader(h) == buf[1 := 0]
  {
    LeBytesOfLeUint(Field(buf, 2));
    LeBytesOfLeUint(Field(buf, 3));
    LeBytesOfLeUint(Field(buf, 4));
    LeBytesOfLeUint(Field(buf, 5));
    LeBytesOfLeUint(Field(buf, 6));
    Int64CastsRoundTrip(LeUint(Field(buf, 7)), 0);
    LeBytesOfLeUint(Field(buf, 7));
    Int64CastsRoundTrip(LeUint(Field(buf, 8)), 0);
    LeBytesOfLeUint(Field(buf, 8));
    TimestampBytesOfParse(Field(buf, 9));
    assert EncodeHeader(h) == [buf[0], 0] + Field(buf, 2) + Field(buf, 3) + Field(buf, 4) + Field(buf, 5)
      + Field(buf, 6) + Field(buf, 7) + Field(buf, 8) + Field(buf, 9);
    var zeroed := buf[1 := 0];
    HeaderSplit(zeroed);
    FieldsBesideReserved(buf, 0);
  }

  /** Overwriting the reserved byte changes no wire field. */
  lemma FieldsBesideReserved(buf: seq<uint8>, b: uint8)
    requires |buf| == SEGMENT_HEADER_SIZE as nat
    ensures var buf' := buf[1 := b];
      && Field(buf', 2) == Field(buf, 2) && Field(buf', 3) == Field(buf, 3)
      && Field(buf', 4) == Field(buf, 4) && Field(buf', 5) == Field(buf, 5)
      && Field(buf', 6) == Field(buf, 6) && Field(buf', 7) == Field(buf, 7)
      && Field(buf', 8) == Field(buf, 8) && Field(buf', 9) == Field(buf, 9)
  {
  }

  /** A header buffer is the concatenation of its wire fields. */
  lemma HeaderSplit(buf: seq<uint8>)
    requires |buf| == SEGMENT_HEADER_SIZE as nat
    ensures buf == [buf[0], buf[1]] + Field(buf, 2) + Field(buf, 3) + Field(buf, 4) + Field(buf, 5)
      + Field(buf, 6) + Field(buf, 7) + Field(buf, 8) + Field(buf, 9)
  {
    assert buf == buf[..2] + buf[2..4] + buf[4..8] + buf[8..12] + buf[12..14] + buf[14..16]
      + buf[16..24] + buf[24..32] + buf[32..];
  }

  /**
   Decoding an encoded header gives the header back, provided its send time
   is canonical: nanoseconds below one second, and a total a `u64` of
   nanoseconds can carry.
   */
  lemma DecodeEncodeHeader(h: SegmentHeader)
    requires IsCanonical(h.sendTime)
    ensures DecodeHeader(EncodeHeader(h)) == h
  {
    var r := EncodeHeader(h);
    EncodeHeaderFields(h);
    Int64CastsRoundTrip(0, h.streamOffset);
    Int64CastsRoundTrip(0, h.firstMessageSequenceNumber);
    TimestampRoundTrip(h.sendTime);
  }

  /** The reserved byte does not affect the decoded header. */
  lemma ReservedByteIgnored(buf: seq<uint8>, b: uint8)
    requires |buf| == SEGMENT_HEADER_SIZE as nat
    ensures DecodeHeader(buf[1 := b]) == DecodeHeader(buf)
  {
    FieldsBesideReserved(buf, b);
  }
}

=== FILE: text.dfy ===
/** Prefixes and separator-delimited pieces of text, used to read rendered paths back. */
module Text {
  import opened Wrappers

  predicate StartsWith(s: string, p: string)
  {
    |p| <= |s| && s[..|p|] == p
  }

  /** The text before the first `c` in `s`; all of `s` when it has no `c`. */
  function Before(s: string, c: char): (r: string)
    ensures |r| <= |s| && r == s[..|r|] && c !in r
    ensures |r| < |s| ==> s[|r|] == c
  {
    if |s| == 0 || s[0] == c then [] else [s[0]] + Before(s[1..], c)
  }

  /** `Before` stops at the first separator and nowhere else. */
  lemma BeforeSeparator(a: string, c: char, b: string)
    requires c !in a
    ensures Before(a + [c] + b, c) == a
  {
    var s := a + [c] + b;
    assert s[|a|] == c;
    assert s[..|a|] == a;
  }

  /** Concatenation is associative. */
  lemma AppendAssoc<T>(a: seq<T>, b: seq<T>, c: seq<T>)
    ensures (a + b) + c == a + (b + c)
  {
  }

  /** Every piece followed by the terminator `c`, in order. */
  function JoinTerminated(parts: seq<string>, c: char): string
  {
    if |parts| == 0 then "" else parts[0] + [c] + JoinTerminated(parts[1..], c)
  }

  /** Cuts text made of `c`-terminated pieces back into the pieces; `None` if the end is unterminated. */
  function SplitTerminated(s: string, c: char): Option<seq<string>>
    decreases |s|
  {
    if |s| == 0 then Some([])
    else
      var piece := Before(s, c);
      if |piece| == |s| then None
      else
        match SplitTerminated(s[|piece| + 1..], c)
        case None => None
        case Some(rest) => Some([piece] + rest)
  }

  /** Pieces free of the terminator are recovered from their join. */
  lemma {:induction false} SplitJoinTerminated(parts: seq<string>, c: char)
    requires forall i :: 0 <= i < |parts| ==> c !in parts[i]
    ensures SplitTerminated(JoinTerminated(parts, c), c) == Some(parts)
  {
    if |parts| > 0 {
      var rest := JoinTerminated(parts[1..], c);
      var s := JoinTerminated(parts, c);
      assert s == parts[0] + [c] + rest;
      BeforeSeparator(parts[0], c, rest);
      assert s[|parts[0]| + 1..] == rest;
      SplitJoinTerminated(parts[1..], c);
      assert parts == [parts[0]] + parts[1..];
    }
  }
}

=== FILE: tops.dfy ===
/**
 The closed catalogs of the IEX TOPS feed (versions 1.5 and 1.6): the feed's
 constants, the message-type tag bytes (Administrative, Trading and Auction
 message formats) and the System Event codes. Every catalog is a closed
 enum with a byte per variant; decoding a byte succeeds exactly on the
 catalog's bytes and inverts the tagging.
 */
module Tops {
  import opened Wrappers
  import opened ByteOrder
  import Unmarshal

  /** `ChannelID`: the channel the TOPS feed is published on. */
  const ChannelId: uint32 := 1

  /** `V_1_5_MessageProtocolID`: the IEX-TP message protocol id of TOPS 1.5. */
  const V1_5MessageProtocolId: uint16 := 0x8002

  /** `V_1_6_MessageProtocolID`: the IEX-TP message protocol id of TOPS 1.6. */
  const V1_6MessageProtocolId: uint16 := 0x8003

  /** `FeedName`. */
  const FeedName: string := "TOPS"

  /** Failures of decoding against the TOPS catalogs. */
  datatype DecodeError =
    | UnknownMessageType(tag: uint8)
    | UnknownSystemEvent(code: uint8)
    | ProtocolMismatch(id: uint16)

  /** Tags and codes of TOPS are upper-case ASCII letters. */
  predicate IsUpperAscii(b: uint8)
  {
    0x41 <= b <= 0x5A
  }

  /** The TOPS message types. */
  datatype Message =
      // Administrative message formats
    | SystemEvent
    | SecurityDirectory
    | TradingStatus
    | OperationalHaltStatus
    | ShortSalePriceTestStatus
      // Trading message formats
    | QuoteUpdate
    | TradeReport
    | TradeBreak
    | OfficialPrice
      // Auction message formats
    | AuctionInformation

  /** The type byte that opens a message block of each type. */
  function MessageTag(m: Message): (b: uint8)
    ensures IsUpperAscii(b)
  {
    match m
    case SystemEvent => 0x53
    case SecurityDirectory => 0x44
    case TradingStatus => 0x48
    case OperationalHaltStatus => 0x4f
    case ShortSalePriceTestStatus => 0x50
    case QuoteUpdate => 0x51
    case TradeReport => 0x54
    case TradeBreak => 0x42
    case OfficialPrice => 0x58
    case AuctionInformation => 0x41
  }

  /** The message type a tag byte selects; any byte outside the catalog is an unknown type. */
  function DecodeMessageType(b: uint8): (r: Result<Message, DecodeError>)
    ensures r.Success? ==> MessageTag(r.value) == b
    ensures r.Failure? ==> r.error == UnknownMessageType(b) && forall m :: MessageTag(m) != b
  {
    if b == 0x53 then Success(SystemEvent)
    else if b == 0x44 then Success(SecurityDirectory)
    else if b == 0x48 then Success(TradingStatus)
    else if b == 0x4f then Success(OperationalHaltStatus)
    else if b == 0x50 then Success(ShortSalePriceTestStatus)
    else if b == 0x51 then Success(QuoteUpdate)
    else if b == 0x54 then Success(TradeReport)
    else if b == 0x42 then Success(TradeBreak)
    else if b == 0x58 then Success(OfficialPrice)
    else if b == 0x41 then Success(AuctionInformation)
    else Failure(UnknownMessageType(b))
  }

  /** The ten message-type bytes of the catalog. */
  const MessageTags: set<uint8> := {0x53, 0x44, 0x48, 0x4f, 0x50, 0x51, 0x54, 0x42, 0x58, 0x41}

  /** Every message type's tag decodes back to that type, so the ten tags are pairwise distinct. */
  lemma MessageTagRoundTrip(m: Message)
    ensures DecodeMessageType(MessageTag(m)) == Success(m)
  {
  }

  /** Distinct message types have distinct tags. */
  lemma MessageTagInjective(m1: Message, m2: Message)
    requires MessageTag(m1) == MessageTag(m2)
    ensures m1 == m2
  {
    MessageTagRoundTrip(m1);
    MessageTagRoundTrip(m2);
  }

  /** A byte decodes to a message type exactly when it is one of the ten tags. */
  lemma DecodeMessageTypeDomain(b: uint8)
    ensures DecodeMessageType(b).Success? <==> b in MessageTags
    ensures |MessageTags| == 10
  {
  }

  /** The System Event codes. */
  datatype SystemEvent =
    | StartOfMessages
    | StartOfSystemHours
    | StartOfRegularMarketHours
    | EndOfRegularMarketHours
    | EndOfSystemHours
    | EndOfMessages

  /** The code byte of each system event. */
  function SystemEventCode(e: SystemEvent): (b: uint8)
    ensures IsUpperAscii(b)
  {
    match e
    case StartOfMessages => 0x4f
    case StartOfSystemHours => 0x53
    case StartOfRegularMarketHours => 0x52
    case EndOfRegularMarketHours => 0x4d
    case EndOfSystemHours => 0x45
    case EndOfMessages => 0x43
  }

  /** The system event a code byte names; any other byte is an unknown event. */
  function DecodeSystemEvent(b: uint8): (r: Result<SystemEvent, DecodeError>)
    ensures r.Success? ==> SystemEventCode(r.value) == b
    ensures r.Failure? ==> r.error == UnknownSystemEvent(b) && forall e :: SystemEventCode(e) != b
  {
    if b == 0x4f then Success(StartOfMessages)
    else if b == 0x53 then Success(StartOfSystemHours)
    else if b == 0x52 then Success(StartOfRegularMarketHours)
    else if b == 0x4d then Success(EndOfRegularMarketHours)
    else if b == 0x45 then Success(EndOfSystemHours)
    else if b == 0x43 then Success(EndOfMessages)
    else Failure(UnknownSystemEvent(b))
  }

  /** The six system-event code bytes. */
  const SystemEventCodes: set<uint8> := {0x4f, 0x53, 0x52, 0x4d, 0x45, 0x43}

  /** Every system event's code decodes back to that event. */
  lemma SystemEventRoundTrip(e: SystemEvent)
    ensures DecodeSystemEvent(SystemEventCode(e)) == Success(e)
  {
  }

  /** Distinct system events have distinct codes. */
  lemma SystemEventCodeInjective(e1: SystemEvent, e2: SystemEvent)
    requires SystemEventCode(e1) == SystemEventCode(e2)
    ensures e1 == e2
  {
    SystemEventRoundTrip(e1);
    SystemEventRoundTrip(e2);
  }

  /** A byte decodes to a system event exactly when it is one of the six codes. */
  lemma DecodeSystemEventDomain(b: uint8)
    ensures DecodeSystemEvent(b).Success? <==> b in SystemEventCodes
    ensures |SystemEventCodes| == 6
  {
  }

  /** The TOPS protocol revisions the feed constants name. */
  datatype ProtocolVersion = V1_5 | V1_6

  function ProtocolId(v: ProtocolVersion): uint16
  {
    match v
    case V1_5 => V1_5MessageProtocolId
    case V1_6 => V1_6MessageProtocolId
  }

  /**
   The TOPS revision a segment header's message protocol id selects; any
   other id is a protocol mismatch, never a fallback.
   */
  function CheckProtocol(id: uint16): (r: Result<ProtocolVersion, DecodeError>)
    ensures r.Success? <==> id == V1_5MessageProtocolId || id == V1_6MessageProtocolId
    ensures r.Success? ==> ProtocolId(r.value) == id
    ensures r.Failure? ==> r.error == ProtocolMismatch(id)
  {
    if id == V1_5MessageProtocolId then Success(V1_5)
    else if id == V1_6MessageProtocolId then Success(V1_6)
    else Failure(ProtocolMismatch(id))
  }

  /** Each revision's id selects that revision, so the two ids are distinct. */
  lemma ProtocolRoundTrip(v: ProtocolVersion)
    ensures CheckProtocol(ProtocolId(v)) == Success(v)
  {
  }

  /** The record a System Event message decodes to: its type, its event, and when. */
  datatype SystemEventMessage = SystemEventMessage(
    message: Message,
    systemEvent: SystemEvent,
    timestamp: Unmarshal.Instant)
}

=== FILE: unmarshal.dfy ===
/**
 The field decoders every IEX-TP decoder shares (the default methods of the
 `Unmarshal` trait): trimmed text, fixed-point prices, nanosecond
 timestamps and second-resolution event times. Each decoder comes with the
 encoder that undoes it.
 */
module Unmarshal {
  import opened Wrappers
  import opened ByteOrder
  import Utf8

  /** `SEGMENT_HEADER_SIZE` (a `u16`): the length of an IEX-TP segment header in bytes. */
  const SEGMENT_HEADER_SIZE: uint16 := 40

  /** `UNIX_YEAR` (an `i64`): despite its name, the number of nanoseconds in a second. */
  const UNIX_YEAR: int64 := 1_000_000_000

  /**
   The (seconds, nanoseconds) pair the decoders hand to chrono's
   `NaiveDateTime::from_timestamp`; the calendar conversion itself is not
   modelled.
   */
  datatype Instant = Instant(secs: int64, nanos: uint32)

  /**
   A canonical time: nanoseconds below one second (a sufficient condition for
   chrono to accept it, which also allows leap-second counts up to 2 * 10^9)
   and a total a `u64` of nanoseconds can carry.
   */
  predicate IsCanonical(t: Instant)
  {
    0 <= t.secs && t.nanos < UNIX_YEAR && t.secs * UNIX_YEAR + t.nanos < TWO_63
  }

  /** A price in ten-thousandths of a dollar: the wire's fixed-point scale. */
  datatype Price = Price(tenThousandths: int64)
  {
    /** The amount the source computes in floating point, here exact. */
    ghost function Dollars(): real
    {
      tenThousandths as real / 10000.0
    }
  }

  /** The error `str::from_utf8` reports. */
  datatype Utf8Error = Utf8Error

  /**
   `parse_string`: the bytes as UTF-8 text with trailing whitespace trimmed.
   The result borrows from the buffer, so its encoding is a prefix of it.
   */
  function ParseString(buf: seq<uint8>): (r: Result<string, Utf8Error>)
    ensures r.Failure? <==> !Utf8.Valid(buf)
    ensures r.Success? ==> Utf8.IsTrimmedEnd(Utf8.Decode(buf).value, r.value)
    ensures r.Success? ==>
      |Utf8.Encode(r.value)| <= |buf| && Utf8.Encode(r.value) == buf[..|Utf8.Encode(r.value)|]
  {
    match Utf8.Decode(buf)
    case None => Failure(Utf8Error)
    case Some(text) =>
      var t := Utf8.TrimEnd(text);
      Utf8.EncodePrefix(buf, text, t);
      Success(t)
  }

  /** A parsed string is already trimmed: re-parsing its encoding gives it back unchanged. */
  lemma ParseStringReparse(buf: seq<uint8>)
    requires ParseString(buf).Success?
    ensures ParseString(Utf8.Encode(ParseString(buf).value)) == ParseString(buf)
  {
    var t := ParseString(buf).value;
    Utf8.DecodeEncode(t);
    assert Utf8.IsTrimmedEnd(t, t);
    Utf8.TrimmedEndUnique(t, Utf8.TrimEnd(t), t);
  }

  /**
   `parse_price`: the eight bytes as a little-endian two's-complement `i64`
   in ten-thousandths. The `unwrap` of the read cannot fail on eight bytes.
   */
  function ParsePrice(buf: seq<uint8>): (p: Price)
    requires |buf| == 8
    ensures (p.tenThousandths - LeUint(buf)) % TWO_64 == 0
    ensures PriceBytes(p) == buf
  {
    var raw := ReadUintLe(buf, 8);
    assert buf[..8] == buf;
    var u := raw.value;
    assert LeUint(buf) == u;
    Int64CastsRoundTrip(u, 0);
    Price(AsInt64(u))
  }

  /** The eight wire bytes of a price (the inverse of `ParsePrice`). */
  function PriceBytes(p: Price): (r: seq<uint8>)
    ensures |r| == 8
  {
    LeBytes(AsUint64(p.tenThousandths), 8)
  }

  /** Every price survives a write and a read. */
  lemma PriceRoundTrip(p: Price)
    ensures ParsePrice(PriceBytes(p)) == p
  {
    var bs := PriceBytes(p);
    var q := ParsePrice(bs);
    assert LeBytes(AsUint64(q.tenThousandths), 8) == bs;
    assert AsUint64(q.tenThousandths) == LeUint(bs) == AsUint64(p.tenThousandths);
    Int64CastsRoundTrip(0, p.tenThousandths);
    Int64CastsRoundTrip(0, q.tenThousandths);
  }

  /**
   `parse_timestamp`: the `u64` of nanoseconds is cast to `i64` and split with
   Rust's truncating `/` and `%`; the remainder is then cast to `u32`. Below
   2^63 this is the ordinary split. From 2^63 up the cast makes the time
   negative and, unless the remainder is zero, leaves a nanosecond count of at
   least 2^32 - 10^9 (one chrono rejects).
   */
  function ParseTimestamp(buf: seq<uint8>): (r: Instant)
    requires |buf| == 8
    ensures LeUint(buf) < TWO_63 ==> IsCanonical(r) && r.secs * UNIX_YEAR + r.nanos == LeUint(buf)
    ensures LeUint(buf) >= TWO_63 ==> r.secs <= 0 && (r.nanos < UNIX_YEAR <==> r.nanos == 0)
    ensures LeUint(buf) >= TWO_63 ==> -(UNIX_YEAR as int) < AsInt32(r.nanos) <= 0
    ensures r.secs * UNIX_YEAR + AsInt32(r.nanos) == AsInt64(LeUint(buf))
  {
    var raw := ReadUintLe(buf, 8);
    assert buf[..8] == buf;
    var timestamp := AsInt64(raw.value);
    TruncDivRem(timestamp, UNIX_YEAR);
    var secs := TruncDiv(timestamp, UNIX_YEAR);
    var rem := TruncRem(timestamp, UNIX_YEAR);
    Instant(secs, AsUint32(rem))
  }

  /**
   The contract of `ParseTimestamp` leaves no choice: any time that splits the
   signed nanosecond count as it promises is the one it returns.
   */
  lemma ParseTimestampDetermined(buf: seq<uint8>, t: Instant)
    requires |buf| == 8
    requires LeUint(buf) < TWO_63 ==> IsCanonical(t) && t.secs * UNIX_YEAR + t.nanos == LeUint(buf)
    requires LeUint(buf) >= TWO_63 ==> -(UNIX_YEAR as int) < AsInt32(t.nanos) <= 0
    requires t.secs * UNIX_YEAR + AsInt32(t.nanos) == AsInt64(LeUint(buf))
    ensures t == ParseTimestamp(buf)
  {
    var n := AsInt64(LeUint(buf));
    var p := ParseTimestamp(buf);
    TruncSplitUnique(n, UNIX_YEAR, t.secs, AsInt32(t.nanos));
    TruncSplitUnique(n, UNIX_YEAR, p.secs, AsInt32(p.nanos));
    AsInt32Injective(t.nanos, p.nanos);
  }

  /** The signed nanosecond count a time denotes, as the decoder reconstructs it. */
  function TotalNanos(t: Instant): int
  {
    t.secs * UNIX_YEAR + AsInt32(t.nanos)
  }

  /** The eight wire bytes of a nanosecond timestamp (the inverse of `ParseTimestamp`). */
  function TimestampBytes(t: Instant): (r: seq<uint8>)
    requires -(TWO_63 as int) <= TotalNanos(t) < TWO_63
    ensures |r| == 8
  {
    LeBytes(AsUint64(TotalNanos(t)), 8)
  }

  /** Every eight-byte timestamp, wrapped or not, is recovered from its decoding. */
  lemma TimestampBytesOfParse(buf: seq<uint8>)
    requires |buf| == 8
    ensures TimestampBytes(ParseTimestamp(buf)) == buf
  {
    var u := LeUint(buf);
    var t := ParseTimestamp(buf);
    assert TotalNanos(t) == AsInt64(u);
    Int64CastsRoundTrip(u, 0);
    assert AsUint64(TotalNanos(t)) == u;
    LeBytesOfLeUint(buf);
  }

  /** Every canonical time survives a write and a read. */
  lemma TimestampRoundTrip(t: Instant)
    requires IsCanonical(t)
    ensures ParseTimestamp(TimestampBytes(t)) == t
  {
    var n := t.secs * UNIX_YEAR + t.nanos;
    var r := ParseTimestamp(TimestampBytes(t));
    assert LeUint(TimestampBytes(t)) == n;
    assert r.secs * UNIX_YEAR + r.nanos == n && r.nanos < UNIX_YEAR;
    assert r.secs == n / UNIX_YEAR && r.nanos == n % UNIX_YEAR;
    assert t.secs == n / UNIX_YEAR && t.nanos == n % UNIX_YEAR;
  }

  /**
   `parse_event_time`: the four bytes as a little-endian `u32` of whole
   seconds, with no sub-second part.
   */
  function ParseEventTime(buf: seq<uint8>): (r: Instant)
    requires |buf| == 4
    ensures 0 <= r.secs < TWO_32 && r.nanos == 0
    ensures LeBytes(r.secs, 4) == buf
  {
    var raw := ReadUintLe(buf, 4);
    assert buf[..4] == buf;
    Instant(raw.value, 0)
  }

  /** Every `u32` of seconds survives a write and a read. */
  lemma EventTimeRoundTrip(secs: uint32)
    ensures ParseEventTime(LeBytes(secs, 4)) == Instant(secs, 0)
  {
  }

  /** The test vector for `parse_price`: 990500 ten-thousandths, i.e. 99.05. */
  lemma ParsePriceVector(buf: seq<uint8>)
    requires buf == [0x24, 0x1d, 0x0f, 0x00, 0x00, 0x00, 0x00, 0x00]
    ensures ParsePrice(buf) == Price(990500)
    ensures ParsePrice(buf).Dollars() == 99.05
  {
    LeUintOf8(buf);
    assert LeUint(buf) == 990500;
  }

  /** A timestamp below 2^63 decodes to the one canonical split of its value. */
  lemma ParseTimestampSplit(buf: seq<uint8>, secs: int64, nanos: uint32)
    requires |buf| == 8
    requires 0 <= secs && nanos < UNIX_YEAR && LeUint(buf) == secs * UNIX_YEAR + nanos < TWO_63
    ensures ParseTimestamp(buf) == Instant(secs, nanos)
  {
    ParseTimestampDetermined(buf, Instant(secs, nanos));
  }

  /** The whole-second test vector for `parse_timestamp` (2017-04-17 17:00:00 UTC). */
  lemma ParseTimestampVectorSecs(buf: seq<uint8>)
    requires buf == [0x00, 0xa0, 0x99, 0x97, 0xe9, 0x3d, 0xb6, 0x14]
    ensures ParseTimestamp(buf) == Instant(1492448400, 0)
  {
    LeUintOf8(buf);
    ParseTimestampSplit(buf, 1492448400, 0);
  }

  /** The sub-second test vector for `parse_timestamp` (2016-08-23 19:30:32.572715948 UTC). */
  lemma ParseTimestampVectorNanos(buf: seq<uint8>)
    requires buf == [0xac, 0x63, 0xc0, 0x20, 0x96, 0x86, 0x6d, 0x14]
    ensures ParseTimestamp(buf) == Instant(1471980632, 572715948)
  {
    LeUintOf8(buf);
    ParseTimestampSplit(buf, 1471980632, 572715948);
  }

  /** The test vector for `parse_string`: a space-padded symbol loses its padding. */
  lemma ParseStringVector(buf: seq<uint8>)
    requires buf == [0x5a, 0x49, 0x45, 0x58, 0x54, 0x20, 0x20, 0x20]
    ensures ParseString(buf) == Success("ZIEXT")
  {
    Utf8.DecodeAscii(buf);
    var text := Utf8.Decode(buf).value;
    assert text == "ZIEXT   ";
    var r := ParseString(buf);
    assert r.Success?;
    assert Utf8.IsTrimmedEnd(text, "ZIEXT");
    Utf8.TrimmedEndUnique(text, r.value, "ZIEXT");
  }
}

=== FILE: utf8.dfy ===
/**
 UTF-8 text as Rust's `str::from_utf8` accepts it and `str::trim_right`
 trims it. A byte string is valid exactly when it is a concatenation of the
 well-formed byte sequences of Table 3-7 of the Unicode Standard (no
 overlong forms, no surrogates, nothing above U+10FFFF); decoding is proved
 to be the inverse of encoding. Dafny's `char` is a Unicode scalar value,
 which is what a Rust `char` holds.
 */
module Utf8 {
  import opened Wrappers
  import opened ByteOrder

  predicate IsContinuation(b: uint8)
  {
    0x80 <= b <= 0xBF
  }

  /** The range Table 3-7 allows for the byte that follows lead byte `b0`. */
  predicate SecondByteOk(b0: uint8, b1: uint8)
  {
    if b0 == 0xE0 then 0xA0 <= b1 <= 0xBF
    else if b0 == 0xED then 0x80 <= b1 <= 0x9F
    else if b0 == 0xF0 then 0x90 <= b1 <= 0xBF
    else if b0 == 0xF4 then 0x80 <= b1 <= 0x8F
    else IsContinuation(b1)
  }

  /**
   Decodes the character at the front of `bs` when its first bytes form one
   well-formed sequence; yields the character and the number of bytes used.
   */
  function DecodeFirst(bs: seq<uint8>): (r: Option<(char, nat)>)
    requires |bs| >= 1
    ensures r.Some? ==> 1 <= r.value.1 <= |bs| && r.value.1 <= 4
  {
    var b0: int := bs[0];
    if b0 < 0x80 then
      Some((b0 as char, 1))
    else if 0xC2 <= b0 <= 0xDF then
      if |bs| >= 2 && IsContinuation(bs[1]) then
        Some((((b0 - 0xC0) * 64 + (bs[1] as int - 0x80)) as char, 2))
      else None
    else if 0xE0 <= b0 <= 0xEF then
      if |bs| >= 3 && SecondByteOk(b0, bs[1]) && IsContinuation(bs[2]) then
        Some((((b0 - 0xE0) * 4096 + (bs[1] as int - 0x80) * 64 + (bs[2] as int - 0x80)) as char, 3))
      else None
    else if 0xF0 <= b0 <= 0xF4 then
      if |bs| >= 4 && SecondByteOk(b0, bs[1]) && IsContinuation(bs[2]) && IsContinuation(bs[3]) then
        Some((((b0 - 0xF0) * 262144 + (bs[1] as int - 0x80) * 4096 + (bs[2] as int - 0x80) * 64 + (bs[3] as int - 0x80)) as char, 4))
      else None
    else
      None
  }

  /** `str::from_utf8`: the text `bs` encodes, or `None` when it is not valid UTF-8. */
  function Decode(bs: seq<uint8>): Option<string>
    decreases |bs|
  {
    if |bs| == 0 then Some([])
    else
      match DecodeFirst(bs)
      case None => None
      case Some((c, n)) =>
        match Decode(bs[n..])
        case None => None
        case Some(rest) => Some([c] + rest)
  }

  predicate Valid(bs: seq<uint8>)
  {
    Decode(bs).Some?
  }

  /** The UTF-8 encoding of one character: one to four bytes. */
  function EncodeChar(c: char): (r: seq<uint8>)
    ensures 1 <= |r| <= 4
  {
    var cp := c as int;
    if cp < 0x80 then [cp]
    else if cp < 0x800 then [0xC0 + cp / 64, 0x80 + cp % 64]
    else if cp < 0x1_0000 then [0xE0 + cp / 4096, 0x80 + (cp / 64) % 64, 0x80 + cp % 64]
    else [0xF0 + cp / 262144, 0x80 + (cp / 4096) % 64, 0x80 + (cp / 64) % 64, 0x80 + cp % 64]
  }

  function Encode(s: string): seq<uint8>
  {
    if |s| == 0 then [] else EncodeChar(s[0]) + Encode(s[1..])
  }

  /** Euclid's division by 64 is unique. */
  lemma Div64(x: int, q: int, r: int)
    requires x == 64 * q + r && 0 <= r < 64
    ensures x / 64 == q && x % 64 == r
  {
  }

  /** Dividing by 64^k is dividing by 64 k times. */
  lemma NestedDiv64(x: nat)
    ensures x / 4096 == (x / 64) / 64
    ensures x / 262144 == (x / 4096) / 64
  {
    var q1, q2, q3 := x / 64, x / 64 / 64, x / 64 / 64 / 64;
    assert x == 4096 * q2 + 64 * (q1 % 64) + x % 64;
    assert x == 262144 * q3 + 4096 * (q2 % 64) + 64 * (q1 % 64) + x % 64;
  }

  /** The lead byte of a character's encoding announces that encoding, whatever follows. */
  lemma DecodeEncodeChar(c: char, rest: seq<uint8>)
    ensures DecodeFirst(EncodeChar(c) + rest) == Some((c, |EncodeChar(c)|))
  {
    var cp := c as int;
    if cp < 0x80 {
    } else if cp < 0x800 {
      DecodeEncodeTwo(c, rest);
    } else if cp < 0x1_0000 {
      DecodeEncodeThree(c, rest);
    } else {
      DecodeEncodeFour(c, rest);
    }
  }

  lemma DecodeEncodeTwo(c: char, rest: seq<uint8>)
    requires 0x80 <= c as int < 0x800
    ensures DecodeFirst(EncodeChar(c) + rest) == Some((c, 2))
  {
    var cp := c as int;
    var bs := EncodeChar(c) + rest;
    Div64(cp, cp / 64, cp % 64);
    assert DecodeFirst(bs).value.0 as int == (cp / 64) * 64 + cp % 64;
  }

  lemma DecodeEncodeThree(c: char, rest: seq<uint8>)
    requires 0x800 <= c as int < 0x1_0000
    ensures DecodeFirst(EncodeChar(c) + rest) == Some((c, 3))
  {
    var cp := c as int;
    var bs := EncodeChar(c) + rest;
    NestedDiv64(cp);
    var q := cp / 64;
    Div64(q, q / 64, q % 64);
    assert 0xE0 <= bs[0] <= 0xEF && SecondByteOk(bs[0], bs[1]);
    assert DecodeFirst(bs).value.0 as int == (q / 64) * 4096 + (q % 64) * 64 + cp % 64;
  }

  lemma DecodeEncodeFour(c: char, rest: seq<uint8>)
    requires 0x1_0000 <= c as int
    ensures DecodeFirst(EncodeChar(c) + rest) == Some((c, 4))
  {
    var cp := c as int;
    var bs := EncodeChar(c) + rest;
    NestedDiv64(cp);
    var q := cp / 64;
    var q' := q / 64;
    Div64(q, q', q % 64);
    Div64(q', q' / 64, q' % 64);
    assert 0xF0 <= bs[0] <= 0xF4 && SecondByteOk(bs[0], bs[1]);
    assert DecodeFirst(bs).value.0 as int == (q' / 64) * 262144 + (q' % 64) * 4096 + (q % 64) * 64 + cp % 64;
  }

  /** A decoded character re-encodes to exactly the bytes it was decoded from. */
  lemma EncodeDecodeFirst(bs: seq<uint8>)
    requires |bs| >= 1 && DecodeFirst(bs).Some?
    ensures EncodeChar(DecodeFirst(bs).value.0) == bs[..DecodeFirst(bs).value.1]
  {
    var n := DecodeFirst(bs).value.1;
    if n == 2 {
      EncodeDecodeTwo(bs);
    } else if n == 3 {
      EncodeDecodeThree(bs);
    } else if n == 4 {
      EncodeDecodeFour(bs);
    }
  }

  lemma EncodeDecodeTwo(bs: seq<uint8>)
    requires |bs| >= 1 && DecodeFirst(bs).Some? && DecodeFirst(bs).value.1 == 2
    ensures EncodeChar(DecodeFirst(bs).value.0) == bs[..2]
  {
    var cp := DecodeFirst(bs).value.0 as int;
    Div64(cp, bs[0] as int - 0xC0, bs[1] as int - 0x80);
  }

  lemma EncodeDecodeThree(bs: seq<uint8>)
    requires |bs| >= 1 && DecodeFirst(bs).Some? && DecodeFirst(bs).value.1 == 3
    ensures EncodeChar(DecodeFirst(bs).value.0) == bs[..3]
  {
    var cp := DecodeFirst(bs).value.0 as int;
    var q := (bs[0] as int - 0xE0) * 64 + (bs[1] as int - 0x80);
    Div64(cp, q, bs[2] as int - 0x80);
    Div64(q, bs[0] - 0xE0, bs[1] as int - 0x80);
    NestedDiv64(cp);
  }

  lemma EncodeDecodeFour(bs: seq<uint8>)
    requires |bs| >= 1 && DecodeFirst(bs).Some? && DecodeFirst(bs).value.1 == 4
    ensures EncodeChar(DecodeFirst(bs).value.0) == bs[..4]
  {
    var cp := DecodeFirst(bs).value.0 as int;
    var q' := (bs[0] as int - 0xF0) * 64 + (bs[1] as int - 0x80);
    var q := q' * 64 + (bs[2] as int - 0x80);
    Div64(cp, q, bs[3] as int - 0x80);
    Div64(q, q', bs[2] as int - 0x80);
    Div64(q', bs[0] - 0xF0, bs[1] as int - 0x80);
    NestedDiv64(cp);
  }

  lemma {:induction false} DecodeEncode(s: string)
    ensures Decode(Encode(s)) == Some(s)
  {
    if |s| > 0 {
      var e := EncodeChar(s[0]);
      DecodeEncodeChar(s[0], Encode(s[1..]));
      assert (e + Encode(s[1..]))[|e|..] == Encode(s[1..]);
      DecodeEncode(s[1..]);
      assert s == [s[0]] + s[1..];
    }
  }

  /** Valid text decodes its first character and then the valid rest. */
  lemma DecodeStep(bs: seq<uint8>)
    requires |bs| > 0 && Valid(bs)
    ensures DecodeFirst(bs).Some? && Valid(bs[DecodeFirst(bs).value.1..])
    ensures Decode(bs).value == [DecodeFirst(bs).value.0] + Decode(bs[DecodeFirst(bs).value.1..]).value
  {
  }

  /** Valid bytes are the encoding of the text they decode to. */
  lemma {:induction false} EncodeDecode(bs: seq<uint8>)
    requires Valid(bs)
    ensures Encode(Decode(bs).value) == bs
    decreases |bs|
  {
    if |bs| > 0 {
      DecodeStep(bs);
      var c := DecodeFirst(bs).value.0;
      var n := DecodeFirst(bs).value.1;
      var rest := Decode(bs[n..]).value;
      EncodeDecodeFirst(bs);
      EncodeDecode(bs[n..]);
      EncodeJoin(bs, n, c, rest);
    }
  }

  lemma ValidIffEncoding(bs: seq<uint8>)
    ensures Valid(bs) <==> exists s :: Encode(s) == bs
  {
    if Valid(bs) {
      EncodeDecode(bs);
    }
    if s :| Encode(s) == bs {
      DecodeEncode(s);
    }
  }

  /** Bytes below 0x80 are ASCII: each decodes to the character with its value. */
  lemma {:induction false} DecodeAscii(bs: seq<uint8>)
    requires forall i :: 0 <= i < |bs| ==> bs[i] < 0x80
    ensures Decode(bs).Some? && |Decode(bs).value| == |bs|
    ensures forall i :: 0 <= i < |bs| ==> Decode(bs).value[i] == bs[i] as char
  {
    if |bs| > 0 {
      DecodeAscii(bs[1..]);
      assert DecodeFirst(bs) == Some((bs[0] as char, 1));
      assert Decode(bs) == Some([bs[0] as char] + Decode(bs[1..]).value);
    }
  }

  lemma EncodeCons(c: char, s: string)
    ensures Encode([c] + s) == EncodeChar(c) + Encode(s)
  {
    assert ([c] + s)[1..] == s;
  }

  lemma EncodeJoin(bs: seq<uint8>, n: nat, c: char, rest: string)
    requires n <= |bs| && EncodeChar(c) == bs[..n] && Encode(rest) == bs[n..]
    ensures Encode([c] + rest) == bs
  {
    EncodeCons(c, rest);
    assert bs[..n] + bs[n..] == bs;
  }

  /** The encoding of a concatenation is the concatenation of the encodings. */
  lemma {:induction false} EncodeAppend(a: string, b: string)
    ensures Encode(a + b) == Encode(a) + Encode(b)
  {
    if |a| > 0 {
      var c, a' := a[0], a[1..];
      assert a == [c] + a';
      assert a + b == [c] + (a' + b);
      EncodeCons(c, a');
      EncodeCons(c, a' + b);
      EncodeAppend(a', b);
      assert EncodeChar(c) + (Encode(a') + Encode(b)) == (EncodeChar(c) + Encode(a')) + Encode(b);
    } else {
      assert a + b == b;
    }
  }

  /** A prefix of decoded text is encoded by a prefix of the bytes. */
  lemma EncodePrefix(bs: seq<uint8>, text: string, t: string)
    requires Decode(bs) == Some(text) && |t| <= |text| && t == text[..|t|]
    ensures |Encode(t)| <= |bs| && Encode(t) == bs[..|Encode(t)|]
  {
    var rest := text[|t|..];
    EncodeDecode(bs);
    assert text == t + rest;
    EncodeAppend(t, rest);
    assert bs == Encode(t) + Encode(rest);
  }

  /**
   Rust's `char::is_whitespace`: the characters with the Unicode White_Space
   property.
   */
  predicate IsWhitespace(c: char)
  {
    || ('\t' <= c <= '\r')
    || c == ' '
    || c == '\U{0085}'
    || c == '\U{00A0}'
    || c == '\U{1680}'
    || ('\U{2000}' <= c <= '\U{200A}')
    || c == '\U{2028}'
    || c == '\U{2029}'
    || c == '\U{202F}'
    || c == '\U{205F}'
    || c == '\U{3000}'
  }

  /** `t` is `s` with its trailing whitespace removed and nothing else changed. */
  ghost predicate IsTrimmedEnd(s: string, t: string)
  {
    && |t| <= |s|
    && t == s[..|t|]
    && (|t| == 0 || !IsWhitespace(t[|t| - 1]))
    && forall i :: |t| <= i < |s| ==> IsWhitespace(s[i])
  }

  /** `str::trim_right` (`trim_end`): drops the trailing run of whitespace. */
  function TrimEnd(s: string): (r: string)
    ensures IsTrimmedEnd(s, r)
  {
    if |s| > 0 && IsWhitespace(s[|s| - 1]) then TrimEnd(s[..|s| - 1]) else s
  }

  /** Only one string is `s` with its trailing whitespace removed. */
  lemma TrimmedEndUnique(s: string, t: string, u: string)
    requires IsTrimmedEnd(s, t) && IsTrimmedEnd(s, u)
    ensures t == u
  {
  }

  /** Trimming twice trims nothing more. */
  lemma TrimEndIdempotent(s: string)
    ensures TrimEnd(TrimEnd(s)) == TrimEnd(s)
  {
    var t := TrimEnd(s);
    assert IsTrimmedEnd(t, t);
    TrimmedEndUnique(t, TrimEnd(t), t);
  }
}

=== FILE: wrappers.dfy ===
/** Failure-carrying result types shared by the decoders and renderers. */
module Wrappers {

  /** A value that may be absent (Rust's `Option`). */
  datatype Option<+T> = None | Some(value: T)

  /** A value or an error (Rust's `Result`). */
  datatype Result<+T, +E> = Success(value: T) | Failure(error: E)
}
